=== FILE: README.md ===
# persistent_bst in Dafny

A model of `persistent_bst`, a binary search tree of integer keys and
string values that lives in two files:

- **The index store.** A 128-byte zero header, followed by fixed 260-byte node records, which are
  appended and never moved. A record holds:
  - the key, unsigned 64 bytes;
  - the value length, unsigned 4 bytes;
  - the value offset, the left-child offset and the right-child offset, each signed 64 bytes.

  Everything is big-endian. A value offset of -1 means "no value yet"; a child offset of -2 means
  "no child". A node is identified by its byte offset, and the root is always the record at
  offset 128.
- **The value heap.** Every value, followed by a newline byte.

The model keeps the two files as byte sequences (`DiskStore.Store`). It keeps the tree that
`BSTNode.load` materialises as an immutable datatype (`Trees.Tree`). The operations are pure
functions over both:

- `get_value`, `save` and `load` (`DiskStore`);
- `get` and `get_all` (`Search`);
- `put` (`Insert`);
- opening the files (`DiskStore.Open`).

Python's file positions are modelled by `Bytes.ReadAt` and `Bytes.WriteAt`. A read is clamped at the
end of the file. A write past the end zero-fills the gap. The exceptions the code can raise become a
`Result` with an `Error`:

- `Overflow`: `int.to_bytes` does not fit, which includes the empty value, whose length is -1;
- `NegativeSeek`: `seek` to a negative position;
- `RecursionLimit`: `load` recurses deeper than Python's recursion limit allows (`RecursionError`).

The central invariant, `Persistence.Inv`, links the in-memory tree to the bytes:

- the header is zero;
- the root is at offset 128;
- every node's record is in its own slot, and the slots are pairwise apart and inside the file;
- the keys are ordered;
- every value lies in the heap.

On top of the invariant the model proves:

- **Record codec.** The record codec round-trips both ways.
- **Put.** Every `put` keeps the invariant. The index grows by one record exactly for a new key.
  For a new key, or for an overwrite under `Append`, `get` after `put` returns the value put and
  every other key keeps its answer. An in-place overwrite, as written, promises neither: `get`
  keeps the old length, and a longer value overwrites the heap bytes of other keys.
- **Reopen.** Whenever the invariant holds, a process that reopens the files with the checked open
  loads exactly the tree the writer holds in memory, given recursion room for the tree's height.
  The open as written does so only once the tree is non-empty: before the first `put` it fails,
  and only the checked open gives the empty tree.
- **Search and listing.** `get` agrees with an exhaustive search, and `get_all` lists the keys
  strictly ascending.

Overwriting an existing key is parameterised by `Insert.OverwritePolicy`:

- `InPlace` is the code as written;
- `Append` gives the new value a fresh heap record.

The first and third findings below motivate this parameter.

Behaviour a user would not expect, which the model keeps as written:

- **Overwriting a key.** One would expect an overwrite to get a fresh heap record. The code writes
  the new value at the old offset and keeps the old length (bst.py:73-81, bst.py:172-173). So
  "`put(k, v1)`, `put(k, v2)`, `get(k)` returns `v2`" holds only under `Append`, or when the two
  values have the same length.
- **Reopening.** An index holding only the header would be expected to open as the empty tree.
  The code loads a root whenever the index is non-empty (bst.py:107-114).
- **Damaged files.** The code raises no error of its own for a damaged index, so none is modelled;
  a damaged file fails only where `to_bytes`, `seek` or the recursion limit does.

## Model

| member | source | states |
|---|---|---|
| Bytes.EncodeUnsigned | bst.py:85-86 | `to_bytes(width, 'big')` of an unsigned number below 256^width yields exactly `width` bytes |
| Bytes.DecodeUnsignedBound | bst.py:55-56 | `from_bytes` of an n-byte string is below 256^n, so a decoded key or value length fits its field |
| Bytes.DecodeEncodeUnsigned | bst.py:55-56 | unsigned big-endian decoding inverts encoding for every number that fits the width |
| Bytes.EncodeDecodeUnsigned | bst.py:85-86 | unsigned encoding at the string's own width inverts decoding: every byte string is some number's encoding |
| Bytes.EncodeSigned | bst.py:87-89 | two's complement `to_bytes(..., signed=True)` of an in-range offset yields exactly `width` bytes |
| Bytes.DecodeSignedRange | bst.py:57-59 | signed decoding of a non-empty string lands in that width's two's complement range |
| Bytes.DecodeEncodeSigned | bst.py:57-59 | signed decoding inverts signed encoding, negative sentinels included |
| Bytes.EncodeDecodeSigned | bst.py:87-89 | signed encoding inverts signed decoding for every non-empty byte string |
| Bytes.Zeros | bst.py:108-109 | the header block is `n` bytes, all zero |
| Bytes.Slice | bst.py:55-59 | Python's `data[lo:hi]`: the length is clamped to the data and the elements are the data's from `lo` on |
| Bytes.ReadAt | bst.py:53-54 | `seek(pos)` then `read(n)` returns the n bytes at `pos` when they exist, never more than n, nothing past the end; a short read returns exactly the bytes from `pos` to the end of file, as does n == -1 |
| Bytes.WriteAt | bst.py:80-81 | `seek(pos)` then `write(data)`: the data is readable at `pos`, every other byte is the old one or a zero gap-fill, the length is the larger end |
| Bytes.WriteAtEnd | bst.py:75-81 | writing at the current end of the file appends |
| Bytes.ReadAfterWrite | bst.py:46-47 | what was written at an offset reads back from that offset |
| NodeRecord.Encode | bst.py:84-90 | a record encodes exactly when every field fits its width, fails with an overflow otherwise, and is always NODE_SIZE bytes |
| NodeRecord.EncodeLayout | bst.py:85-89 | the fields lie in the order key, value length, value offset, left, right, at offsets 0, 64, 68, 132, 196 |
| NodeRecord.Decode | bst.py:54-59 | key and value length decode non-negative; an empty read decodes to the all-zero record |
| NodeRecord.DecodeFields | bst.py:55-59 | decoding reads each field from its own byte range |
| NodeRecord.DecodeEncode | bst.py:55-59 | decoding the bytes `save` wrote recovers every field, including the -1 and -2 sentinels |
| NodeRecord.EncodeFields | bst.py:85-89 | re-encoding five decoded fields of the right widths gives back their bytes |
| NodeRecord.EncodeDecode | bst.py:85-89 | every 260-byte slot decodes to an encodable record that re-encodes to the same bytes |
| Trees.InOrderSorted | bst.py:126-129 | the in-order key list has one entry per node, holds exactly the tree's keys, and is strictly ascending when the tree is ordered |
| Trees.FindNode | bst.py:131-139 | the exhaustive reference search finds a node exactly when the key is in the tree, and the node found carries that key |
| Trees.RightSpineHeight | bst.py:149-170 | a tree with no left children is as deep as it has nodes |
| DiskStore.EmptyStore | bst.py:104-111 | the store the first session creates is an index of 128 zero bytes and an empty heap |
| DiskStore.ValueSizeCoversRecord | bst.py:27 | the recorded value length is negative exactly for the empty value; otherwise it covers the value and its separator, so reading that many bytes and dropping the last gives the value back |
| DiskStore.NewNodeFresh | bst.py:15-30 | a node created for `put` sits at the offset it is given, its record carries the value length with the no-value and both no-child sentinels, and saving it with data places its value at the end of the heap |
| DiskStore.SavedValueOffset | bst.py:73-76 | `save` never moves a value that already has an offset; only a node without one that writes data gets a new offset, the end of the heap |
| DiskStore.DropLast | bst.py:48 | dropping the last byte undoes appending one |
| DiskStore.ReadValue | bst.py:41-49 | `get_value` answers None exactly for offset -1 and fails exactly for other negative offsets; for an in-heap value it returns the value's bytes without the separator |
| DiskStore.WriteValue | bst.py:73-82 | the heap is only written when the value is non-empty and data is overwritten; the value and its newline then read back at the offset, every other heap byte is kept, and the heap grows only to cover the write; at the heap's end this appends; a negative offset fails |
| DiskStore.WriteRecord | bst.py:84-92 | writing a record fails exactly for a negative offset or an unencodable record; otherwise only the node's 260-byte slot changes and the file grows to cover it |
| DiskStore.WriteRecordReadsBack | bst.py:84-92 | the slot just written holds the record's encoding and decodes back to the record |
| DiskStore.SlotRecordInside | bst.py:53-54 | a slot inside the file decodes exactly its own 260 bytes |
| DiskStore.LoadFrom | bst.py:52-62 | a successful load builds a node at the requested offset, no deeper than the recursion budget, whose key, value length, value offset and child offsets are exactly the record read at that offset |
| DiskStore.LoadChild | bst.py:61-62 | a child is absent exactly when its stored offset is -2; otherwise it is the node loaded at that offset |
| DiskStore.Load | bst.py:52-59 | loading from the index store yields a node at the requested offset that carries the record decoded from that slot |
| DiskStore.Open | bst.py:104-114 | an empty index gets a zero header and an empty tree; any other index has as its root the node carrying the record at offset 128 |
| Search.Get | bst.py:131-139 | `get` of a key not in the tree answers None |
| Search.GetFindsNode | bst.py:131-139 | on an ordered tree the left/right descent reads the same node as an exhaustive search |
| Search.GetAll | bst.py:121-129 | `get_all` of the empty tree is empty; otherwise its keys are the in-order keys |
| Search.GetAllAscending | bst.py:121-129 | the listing of an ordered tree is strictly ascending, one entry per node, every key from the tree |
| Search.GetAllAgreesWithGet | bst.py:126-129 | every listed pair is what `get` answers for its key |
| Insert.Overwritten | bst.py:171-173 | the equal-key branch changes only the node's value fields: in place it keeps the old offset and old length, appending it drops the offset and records the new value's length |
| Insert.AddChild | bst.py:151-157 | the new node becomes the child on the side that was missing; the parent keeps its value and its other child |
| Insert.PutAt | bst.py:149-174 | a successful `_put` leaves in memory the plain binary search tree insertion of the key |
| Insert.Put | bst.py:141-147 | a successful `put` on an empty tree creates the root; otherwise it inserts as `_put` does |
| Insert.InsertedKeys | bst.py:149-174 | insertion adds the key and no other key, and keeps the root node |
| Insert.InsertedExisting | bst.py:171-174 | re-putting an existing key keeps the tree's shape, node count and offsets |
| Insert.InsertedNew | bst.py:28-30 | a new key adds exactly one node, at the end-of-index offset |
| Insert.InsertedOrdered | bst.py:149-170 | insertion preserves the binary search tree ordering |
| Persistence.EmptyStoreInv | bst.py:104-111 | a freshly created store holds the empty tree, and opening empty files creates it |
| Persistence.LoadHolds | bst.py:52-62 | loading a tree whose records are all in place materialises exactly that tree, given recursion room for its height |
| Persistence.LoadChildHolds | bst.py:61-62 | the same holds for a child, present or absent |
| Persistence.Reopen | bst.py:112-114 | reopening the files of a session, given recursion room for the tree's height, gives back the session's tree |
| Persistence.WriteRecordSlot | bst.py:84-91 | writing one record puts it in its slot and changes no byte outside that slot |
| Durable.InsertedOffsets | bst.py:28-30 | insertion introduces no offset other than the end of the index |
| Durable.InsertedSeparate | bst.py:28-30 | a slot appended at the end of the index keeps all slots pairwise apart |
| Durable.InsertedValues | bst.py:73-82 | after insertion every value still lies inside the heap |
| Durable.SaveSlot | bst.py:84-92 | `save` puts the node's record in its own slot, changes no other slot, and grows the file only to cover that slot |
| Durable.SaveRecordOnly | bst.py:71-93 | `save(overwrite_data=False)` leaves the heap and the node unchanged and rewrites only the node's own slot |
| Durable.SaveFreshValue | bst.py:73-82 | saving a node without a value appends the value and its newline to the heap; an empty value makes the save fail |
| Durable.AddChildStored | bst.py:151-156 | adding a child grows the index by one record, touches only the parent's slot and the new slot, and stores the updated parent |
| Durable.PutAtStored | bst.py:149-174 | `_put` rewrites only slots of the subtree it works on plus the new end slot, and the updated subtree is stored |
| Durable.PutAtHeap | bst.py:149-174 | `_put` never shrinks the heap; a new key, or an overwrite under `Append`, appends exactly the value and its newline |
| Durable.PutNodeInv | bst.py:147-174 | `put` on a non-empty tree keeps the session invariant and grows the index by one record exactly for a new key |
| Durable.RootSavedInv | bst.py:142-145 | saving the first node into a header-only index puts the root at offset 128 with its value in the heap, and the invariant holds |
| Durable.PutRootInv | bst.py:141-145 | `put` on an empty tree keeps the invariant and adds one record |
| Durable.PutHeap | bst.py:141-147 | what any successful `put` does to the heap |
| Durable.PutKeepsInv | bst.py:141-174 | every successful `put` keeps the session invariant, adds exactly the key, and grows the index by one record exactly when the key is new |
| Session.GetPrefix | bst.py:41-49 | appending to the heap changes no answer of `get` for values already in it |
| Session.GetAfterInsert | bst.py:131-139 | after inserting and appending the value, `get` finds the value under its key and the old answer under every other key |
| Session.PutThenGet | bst.py:141-147 | `put(k, v)` then `get(k)` returns `v` when the key is new or the overwrite appends, and every other key keeps its answer |
| Session.PutThenReopen | bst.py:96-114 | after a successful `put`, a process that opens the files, checked or as written, loads exactly the tree held in memory, given recursion room for the new tree's height |
| Session.AscendingInsertSpine | bst.py:149-170 | inserting keys in ascending order builds a right spine whose depth equals its node count |
| Session.PutAtRejectsUnencodable | bst.py:150-157 | `_put` of a new key that does not fit 64 bytes, or of a value whose length does not fit 4 bytes, fails with an overflow |
| Session.PutRejectsUnencodable | bst.py:141-147 | the same failure for `put`, on an empty tree too |
| Findings.GetInPlaceExisting | bst.py:171-174 | an in-place overwrite leaves the node unchanged, so `get` reads the old offset and length |
| Findings.InPlaceOverwriteKeepsOldLength | bst.py:172-173 | after an in-place overwrite, `get` returns as many bytes as the old value had, so a value of another length never reads back |
| Findings.FirstPutExample | bst.py:141-145 | on a fresh store `put(1, "hello")` creates the root at 128 with a 6-byte value at heap offset 0, and `get(1)` reads "hello" |
| Findings.SecondPutExample | bst.py:171-174 | re-putting key 1 with "hi" on that root succeeds |
| Findings.ShorterOverwriteExample | bst.py:172-173 | `put(1, "hello")`, `put(1, "hi")`, `get(1)` does not return "hi" |
| Findings.TwoPutsExample | bst.py:141-167 | on a fresh store `put(1, "a")`, `put(2, "b")` leave the two-node tree and the heap "a\nb\n" |
| Findings.GetTwoReadsOffsetTwo | bst.py:41-49 | in that tree `get(2)` reads two bytes at heap offset 2 and returns the first |
| Findings.LongerOverwriteHeap | bst.py:171-174 | as written, `put(1, "xyz")` on that store keeps the tree and writes "xyz\n" over "a\nb\n" |
| Findings.LongerOverwriteExample | bst.py:80-81 | `get(2)` answers "b" before that overwrite and "z" after it |
| Findings.NeighbourOverwriteExample | bst.py:172-173 | on a fresh store `put(1, "a")`, `put(2, "b")`, `put(1, "xyz")` change the answer of `get(2)`, a key never written again |
| Findings.ShortSlotLeftIsZero | bst.py:53-58 | the slot at offset 0 or 128 of a header-only index is cut short by the end of the file, so its left field is empty and decodes to offset 0 |
| Findings.HeaderLoopsForever | bst.py:61 | loading offset 0 of a header-only index fails with the recursion limit for every budget |
| Findings.OpenHeaderOnlyFails | bst.py:112-114 | opening a header-only index as written fails with the recursion limit, while the checked open yields the empty tree |
| Findings.ReopenFreshStoreExample | bst.py:104-114 | the store created on first use and closed without a `put` cannot be reopened as written |

## Left out

- Values are byte strings. The code counts characters for the value length (bst.py:27) but writes
  UTF-8 bytes. The two differ for non-ASCII text, so the model is exact only for ASCII values.
  The UTF-8 check in `decode('utf-8')` is not modelled either.
- File creation and `open` with `os.path.exists` (bst.py:97-103) are not modelled. Only the
  resulting contents are: empty files, or the files a previous session left.
- `flush`, the debug `print` (bst.py:79) and `pdb.set_trace()` (bst.py:154) have no logical content.
- The interactive REPL (bst.py:177-199) and `__repr__`/`__str__` (bst.py:35-39) are user I/O.
- `get_key` (bst.py:65-68) is not a separate member. The materialised tree is always loaded, so
  it reads the node's key field, as `Search.Get` does.
- Lazy versus eager loading affects only I/O volume, so the tree is materialised completely.
  The second `root.load()` in `BST.__init__` (bst.py:114) reads the same records again and is
  not modelled.
- DiskStore.LoadFrom: `fuel` stands for Python's recursion limit, counted in tree levels. Each
  level of `load` takes two frames (`load` at bst.py:61 and `BSTNode.__init__` at bst.py:33), so
  the default limit of 1000 frames allows about 500 levels. Running out of fuel is the
  `RecursionLimit` error. Every success result holds for any budget of at least the tree's
  height. The exact frame count, which depends on the caller's depth, is not modelled.
- Search.Get, Search.GetAll and Insert.PutAt: recurse without a bound. In the code `_get`,
  `_get_all` and `_put` (bst.py:126-174) take one frame per level, so they raise `RecursionError`
  near a height of 1000. That only matters for trees that `load` could not have read back
  anyway, and such a tree needs at least about 500 ascending puts in one session, on top of a
  tree of about 500 levels that `load` can still read back.
- Bytes.ReadAt: a length below -1 reads to end of file here, while Python's buffered `read`
  raises `ValueError` for it. No caller passes one: record reads ask for 260 bytes and value
  reads for a node's value length, which is at least -1.
- DiskStore.LoadChild: a stored child offset of -1 fails with `NegativeSeek`. The code instead
  builds an unloaded node at the current end of the index (bst.py:28-30, bst.py:61). No file
  the code writes has such an offset, because child offsets are always a written node's position
  or -2, so only damaged files would reach that case.
- Partial effects of a failing operation are not modelled. When `save` raises after writing the
  value, the model returns only the error, not the half-written heap. The in-memory nodes Python
  has already linked are dropped too.
- Session.PutRejectsUnencodable: states only the failure direction. It does not say that a
  new key always succeeds when its record fits, because that also needs the file offsets to
  fit 64 signed bytes.
- Concurrency: two processes using the same files are not modelled.

## Findings

| source | as written | input that shows it | evidently intended | confidence | as-written member | corrected member |
|---|---|---|---|---|---|---|
| bst.py:172-173 | re-putting an existing key writes the new value at the old heap offset and keeps the old `value_size` | `put(1, "hello")`, `put(1, "hi")`, `get(1)` returns 5 bytes (`"hi\nlo"`), not `"hi"` | `get` after `put` returns the value put: give the new value a fresh heap record with its own length | not executed | Findings.ShorterOverwriteExample | Session.PutThenGet |
| bst.py:172-173 | an in-place overwrite with a longer value writes its bytes over the values stored after the old one | `put(1, "a")`, `put(2, "b")`, `put(1, "xyz")`: the heap `a\nb\n` becomes `xyz\n`, and `get(2)` returns `"z"` | an overwrite leaves every other key's answer alone: give the new value a fresh heap record | not executed | Findings.NeighbourOverwriteExample | Session.PutThenGet |
| bst.py:107-114 | any non-empty index has its root loaded from offset 128, including one holding only the header | create the store, close it without a `put`, reopen: the slot at 128 is empty, its left offset decodes to 0, and loading offset 0 reads the header as a record whose left offset is 0 again, so it recurses until the recursion limit | an index without records opens as the empty tree | not executed | Findings.OpenHeaderOnlyFails | Persistence.Reopen |

=== FILE: bytes.dfy ===
/** Byte strings, the fixed-width big-endian integer codecs used by the node
    records (Python's `int.to_bytes` / `int.from_bytes`), and the positioned
    reads and writes of a file. */
module Bytes {

  /** One byte of a file. */
  type byte = b: int | 0 <= b < 256

  function Min(a: int, b: int): int { if a <= b then a else b }

  function Max(a: int, b: int): int { if a <= b then b else a }

  /** 256 to the power n: the number of distinct n-byte strings. */
  function Pow256(n: nat): (r: nat)
    ensures r >= 1
  {
    if n == 0 then 1 else 256 * Pow256(n - 1)
  }

  /** Half of Pow256(n): the bound of the n-byte two's complement range. */
  function Half(n: nat): int
  {
    Pow256(n) / 2
  }

  lemma PowIsTwiceHalf(n: nat)
    requires n > 0
    ensures Pow256(n) == 2 * Half(n)
  {
  }

  /** A signed integer representable in `width` bytes of two's complement. */
  predicate InSignedRange(x: int, width: nat)
  {
    -Half(width) <= x < Half(width)
  }

  /** More bytes give at least as many strings. */
  lemma {:induction false} PowMonotone(m: nat, n: nat)
    requires m <= n
    ensures Pow256(m) <= Pow256(n)
    decreases n - m
  {
    if m < n {
      PowMonotone(m, n - 1);
    }
  }

  /** Big-endian unsigned encoding of `n` in exactly `width` bytes. */
  function EncodeUnsigned(n: nat, width: nat): (r: seq<byte>)
    requires n < Pow256(width)
    ensures |r| == width
    decreases width
  {
    if width == 0 then [] else EncodeUnsigned(n / 256, width - 1) + [n % 256]
  }

  /** Big-endian unsigned decoding of any byte string. */
  function DecodeUnsigned(bs: seq<byte>): nat
  {
    if |bs| == 0 then 0 else DecodeUnsigned(bs[..|bs| - 1]) * 256 + bs[|bs| - 1]
  }

  /** An n-byte string decodes below 256^n. */
  lemma {:induction false} DecodeUnsignedBound(bs: seq<byte>)
    ensures DecodeUnsigned(bs) < Pow256(|bs|)
  {
    if |bs| > 0 {
      var d := DecodeUnsigned(bs[..|bs| - 1]);
      DecodeUnsignedBound(bs[..|bs| - 1]);
      assert d * 256 + bs[|bs| - 1] <= (Pow256(|bs| - 1) - 1) * 256 + 255;
    }
  }

  /** Decoding an encoded number gives the number back. */
  lemma {:induction false} DecodeEncodeUnsigned(n: nat, width: nat)
    requires n < Pow256(width)
    ensures DecodeUnsigned(EncodeUnsigned(n, width)) == n
    decreases width
  {
    if width > 0 {
      var e := EncodeUnsigned(n, width);
      assert e[..width - 1] == EncodeUnsigned(n / 256, width - 1);
      DecodeEncodeUnsigned(n / 256, width - 1);
    }
  }

  /** Encoding a decoded byte string at its own width gives the bytes back. */
  lemma {:induction false} EncodeDecodeUnsigned(bs: seq<byte>)
    ensures DecodeUnsigned(bs) < Pow256(|bs|)
    ensures EncodeUnsigned(DecodeUnsigned(bs), |bs|) == bs
  {
    DecodeUnsignedBound(bs);
    if |bs| > 0 {
      var p := bs[..|bs| - 1];
      var n := DecodeUnsigned(bs);
      EncodeDecodeUnsigned(p);
      assert n / 256 == DecodeUnsigned(p);
      assert n % 256 == bs[|bs| - 1];
      assert bs == p + [bs[|bs| - 1]];
    }
  }

  /** Big-endian two's complement encoding of `x` in exactly `width` bytes. */
  function EncodeSigned(x: int, width: nat): (r: seq<byte>)
    requires InSignedRange(x, width)
    ensures |r| == width
  {
    if x >= 0 then EncodeUnsigned(x, width) else EncodeUnsigned(x + Pow256(width), width)
  }

  /** Big-endian two's complement decoding; the empty string decodes to 0. */
  function DecodeSigned(bs: seq<byte>): int
  {
    var u := DecodeUnsigned(bs);
    if |bs| == 0 || u < Half(|bs|) then u else u - Pow256(|bs|)
  }

  /** A non-empty n-byte string decodes into the n-byte signed range. */
  lemma DecodeSignedRange(bs: seq<byte>)
    requires |bs| > 0
    ensures InSignedRange(DecodeSigned(bs), |bs|)
  {
    DecodeUnsignedBound(bs);
    PowIsTwiceHalf(|bs|);
  }

  lemma DecodeEncodeSigned(x: int, width: nat)
    requires InSignedRange(x, width)
    ensures DecodeSigned(EncodeSigned(x, width)) == x
  {
    PowIsTwiceHalf(width);
    if x >= 0 {
      DecodeEncodeUnsigned(x, width);
    } else {
      DecodeEncodeUnsigned(x + Pow256(width), width);
    }
  }

  lemma EncodeDecodeSigned(bs: seq<byte>)
    requires |bs| > 0
    ensures InSignedRange(DecodeSigned(bs), |bs|)
    ensures EncodeSigned(DecodeSigned(bs), |bs|) == bs
  {
    DecodeSignedRange(bs);
    PowIsTwiceHalf(|bs|);
    EncodeDecodeUnsigned(bs);
  }

  /** `n` zero bytes. */
  function Zeros(n: nat): (r: seq<byte>)
    ensures |r| == n
    ensures forall i :: 0 <= i < n ==> r[i] == 0
  {
    seq(n, _ => 0)
  }

  /** Python's slice `s[lo:hi]` for non-negative bounds: out-of-range bounds are
      clamped to the length and a reversed range is empty. */
  function Slice(s: seq<byte>, lo: nat, hi: nat): (r: seq<byte>)
    ensures |r| == (if lo < hi && lo < |s| then Min(hi, |s|) - lo else 0)
    ensures forall i :: 0 <= i < |r| ==> r[i] == s[lo + i]
  {
    var a := Min(lo, |s|);
    var b := Min(hi, |s|);
    if a <= b then s[a..b] else []
  }

  /** `read(n)` after `seek(pos)`: at most `n` bytes, fewer at end of file,
      and everything up to end of file when `n == -1`. Python raises
      `ValueError` for a length below -1; no caller passes one, and here
      such a length also reads to end of file. */
  function ReadAt(f: seq<byte>, pos: nat, n: int): (r: seq<byte>)
    ensures n >= 0 && pos + n <= |f| ==> r == f[pos..pos + n]
    ensures n >= 0 ==> |r| <= n
    ensures pos >= |f| ==> r == []
    ensures pos < |f| ==> r == f[pos..if n < 0 || pos + n > |f| then |f| else pos + n]
  {
    if n < 0 then Slice(f, pos, |f|) else Slice(f, pos, pos + n)
  }

  /** `write(data)` after `seek(pos)`: overwrites from `pos`, extends the file
      when it writes past the end, and zero-fills a gap before `pos`. */
  function WriteAt(f: seq<byte>, pos: nat, data: seq<byte>): (r: seq<byte>)
    ensures |r| == Max(|f|, pos + |data|)
    ensures r[pos..pos + |data|] == data
    ensures forall i :: 0 <= i < |r| && !(pos <= i < pos + |data|) ==>
              r[i] == (if i < |f| then f[i] else 0)
  {
    if pos <= |f| then
      f[..pos] + data + (if pos + |data| < |f| then f[pos + |data|..] else [])
    else
      f + Zeros(pos - |f|) + data
  }

  /** Writing at the end of a file appends. */
  lemma WriteAtEnd(f: seq<byte>, data: seq<byte>)
    ensures WriteAt(f, |f|, data) == f + data
  {
  }

  /** What was written at `pos` reads back from `pos`. */
  lemma ReadAfterWrite(f: seq<byte>, pos: nat, data: seq<byte>)
    ensures ReadAt(WriteAt(f, pos, data), pos, |data|) == data
  {
  }
}

=== FILE: durable.dfy ===
/** What a successful `put` does to the two files: the session invariant
    is kept, the index grows by one record exactly for a new key, and a
    fresh process that reopens the files loads the updated tree. */
module Durable {
  import opened Bytes
  import opened Layout
  import opened Results
  import opened NodeRecord
  import opened Trees
  import opened DiskStore
  import opened Insert
  import opened Persistence

  /** Insertion only ever adds the node at `indexLen`. */
  lemma {:induction false} InsertedOffsets(t: Tree, key: int, value: seq<byte>, policy: OverwritePolicy, indexLen: int, heapLen: int)
    ensures Offsets(Inserted(t, key, value, policy, indexLen, heapLen)) <= Offsets(t) + {indexLen}
  {
    match t
    case Nil =>
    case Node(_, k, _, _, l, r) =>
      if key < k {
        InsertedOffsets(l, key, value, policy, indexLen, heapLen);
      } else if key > k {
        InsertedOffsets(r, key, value, policy, indexLen, heapLen);
      }
  }

  /** A new slot at the end of the file is apart from every existing one, so
      insertion keeps the slots of distinct nodes apart. */
  lemma {:induction false} InsertedSeparate(t: Tree, key: int, value: seq<byte>, policy: OverwritePolicy, indexLen: int, heapLen: int)
    requires Separate(t)
    requires forall p :: p in Offsets(t) ==> Apart(p, indexLen)
    ensures Separate(Inserted(t, key, value, policy, indexLen, heapLen))
  {
    match t
    case Nil =>
    case Node(o, k, _, _, l, r) =>
      if key < k {
        InsertedSeparate(l, key, value, policy, indexLen, heapLen);
        InsertedOffsets(l, key, value, policy, indexLen, heapLen);
        assert o in Offsets(t);
        forall p | p in Offsets(r)
          ensures Apart(p, indexLen)
        {
          assert p in Offsets(t);
        }
      } else if key > k {
        InsertedSeparate(r, key, value, policy, indexLen, heapLen);
        InsertedOffsets(r, key, value, policy, indexLen, heapLen);
        assert o in Offsets(t);
        forall p | p in Offsets(l)
          ensures Apart(p, indexLen)
        {
          assert p in Offsets(t);
        }
      }
  }

  /** Values stay inside the heap: an untouched node keeps its region, a
      node given a new heap record gets `|value| + 1` bytes at `heapLen`. */
  lemma {:induction false} InsertedValues(t: Tree, key: int, value: seq<byte>, policy: OverwritePolicy, indexLen: int, heapLen: nat, heapLen': int)
    requires Ordered(t) && ValuesInHeap(t, heapLen) && heapLen <= heapLen'
    requires policy == Append || key !in Keys(t) ==> 0 < |value| && heapLen + |value| + 1 <= heapLen'
    ensures ValuesInHeap(Inserted(t, key, value, policy, indexLen, heapLen), heapLen')
  {
    match t
    case Nil =>
    case Node(_, k, _, _, l, r) =>
      if key < k {
        assert key !in Keys(r);
        InsertedValues(l, key, value, policy, indexLen, heapLen, heapLen');
        ValuesInLargerHeap(r, heapLen, heapLen');
      } else if key > k {
        assert key !in Keys(l);
        InsertedValues(r, key, value, policy, indexLen, heapLen, heapLen');
        ValuesInLargerHeap(l, heapLen, heapLen');
      } else {
        ValuesInLargerHeap(l, heapLen, heapLen');
        ValuesInLargerHeap(r, heapLen, heapLen');
      }
  }

  lemma IndexFrameMono(a: seq<byte>, b: seq<byte>, s1: set<int>, s2: set<int>)
    requires IndexFrame(a, b, s1) && s1 <= s2
    ensures IndexFrame(a, b, s2)
  {
    forall i | 0 <= i < |a| && OutsideAll(i, s2)
      ensures b[i] == a[i]
    {
      assert OutsideAll(i, s1);
    }
  }

  /** `t2` agrees with `t1` on every slot inside the first `len` bytes
      that is apart from all of `changed`. */
  predicate Keeps(t1: nat -> Record, t2: nat -> Record, len: int, changed: set<int>)
  {
    forall o: nat :: o + NodeSize <= len && (forall q :: q in changed ==> Apart(o, q)) ==> t2(o) == t1(o)
  }

  /** `save` puts the node's record in its own slot and changes no other
      slot; the file grows only if the slot reaches past its end. */
  lemma SaveSlot(n: Tree, st: Store, overwriteData: bool, value: seq<byte>)
    requires n.Node? && Save(n, st, overwriteData, value).Success?
    ensures var (m, st') := Save(n, st, overwriteData, value).value;
            && n.offset >= 0
            && Slots(st'.index)(n.offset) == RecordOf(m)
            && IndexFrame(st.index, st'.index, {n.offset})
            && Keeps(Slots(st.index), Slots(st'.index), |st.index|, {n.offset})
            && |st'.index| == Max(|st.index|, n.offset + NodeSize)
  {
    var (m, st') := Save(n, st, overwriteData, value).value;
    WriteRecordSlot(st.index, n.offset, RecordOf(m));
    FrameKeeps(st.index, st'.index, {n.offset});
  }

  /** `save(overwrite_data=False)`: the heap and the node are untouched and
      only the node's own slot of the index is rewritten, with its record. */
  lemma SaveRecordOnly(n: Tree, st: Store, value: seq<byte>)
    requires n.Node? && Save(n, st, false, value).Success?
    ensures var r := Save(n, st, false, value).value;
            && r.0 == n && r.1.heap == st.heap
            && Slots(r.1.index)(n.offset) == RecordOf(n)
            && IndexFrame(st.index, r.1.index, {n.offset})
  {
    SaveSlot(n, st, false, value);
  }

  /** Byte-level frame to record-level frame. */
  lemma FrameKeeps(a: seq<byte>, b: seq<byte>, changed: set<int>)
    requires IndexFrame(a, b, changed)
    ensures Keeps(Slots(a), Slots(b), |a|, changed)
  {
    forall o: nat | o + NodeSize <= |a| && (forall q :: q in changed ==> Apart(o, q))
      ensures Slots(b)(o) == Slots(a)(o)
    {
      SlotKept(a, b, changed, o);
    }
  }

  /** Table form of a subtree staying stored: its slots are all inside the
      old file and apart from every changed slot. */
  lemma HoldsKept(t: Tree, t1: nat -> Record, t2: nat -> Record, len: int, changed: set<int>)
    requires Holds(t, t1) && InFile(t, len) && Keeps(t1, t2, len, changed)
    requires forall p, q :: p in Offsets(t) && q in changed ==> Apart(p, q)
    ensures Holds(t, t2)
  {
    forall o: nat | o in Offsets(t)
      ensures t1(o) == t2(o)
    {
    }
    HoldsFrame(t, t1, t2);
  }

  /** Table form of the new-child branch of `_put`. */
  lemma AddChildHolds(n: Tree, child: Tree, m: Tree, s0: nat -> Record, s1: nat -> Record, s2: nat -> Record, len: nat, onLeft: bool)
    requires n.Node? && InFile(n, len) && Separate(n) && Holds(n, s0)
    requires child.Node? && child.offset == len && child.left.Nil? && child.right.Nil?
    requires m == (if onLeft then n.(left := child) else n.(right := child))
    requires s1(len) == RecordOf(child) && Keeps(s0, s1, len, {len})
    requires s2(n.offset) == RecordOf(m) && Keeps(s1, s2, len + NodeSize, {n.offset})
    ensures Holds(m, s2)
  {
    assert n.offset in Offsets(n);
    assert Apart(len, n.offset);
    var other := if onLeft then n.right else n.left;
    OtherSideApart(n, len, onLeft);
    HoldsKept(other, s0, s1, len, {len});
    forall p, q | p in Offsets(other) && q in {n.offset}
      ensures Apart(p, q)
    {
    }
    HoldsKept(other, s1, s2, len + NodeSize, {n.offset});
  }

  /** The subtree `_put` does not descend into is apart from the node
      itself and from the end of the file. */
  lemma OtherSideApart(n: Tree, len: int, onLeft: bool)
    requires n.Node? && InFile(n, len) && Separate(n)
    ensures var other := if onLeft then n.right else n.left;
            && InFile(other, len)
            && forall p, q :: p in Offsets(other) && q in {n.offset, len} ==> Apart(p, q)
  {
    var other := if onLeft then n.right else n.left;
    forall p, q | p in Offsets(other) && q in {n.offset, len}
      ensures Apart(p, q)
    {
      assert p in Offsets(n);
    }
    forall p | p in Offsets(other)
      ensures HeaderSize <= p && p + NodeSize <= len
    {
      assert p in Offsets(n);
    }
  }

  /** The new-child branch of `_put` writes the child's record at the end of
      the index and rewrites the parent's record, touching no other slot. */
  lemma AddChildStored(n: Tree, st: Store, key: int, value: seq<byte>, onLeft: bool)
    requires n.Node? && AddChild(n, st, key, value, onLeft).Success?
    requires Stored(n, st.index) && Separate(n)
    ensures var (m, st') := AddChild(n, st, key, value, onLeft).value;
            && |st'.index| == |st.index| + NodeSize
            && IndexFrame(st.index, st'.index, {n.offset, |st.index|})
            && Holds(m, Slots(st'.index))
  {
    var len := |st.index|;
    var leaf := NewNode(len, key, value);
    var (child, st1) := Save(leaf, st, true, value).value;
    SaveSlot(leaf, st, true, value);
    var parent := if onLeft then n.(left := child) else n.(right := child);
    var (m, st2) := Save(parent, st1, false, []).value;
    assert n.offset in Offsets(n);
    SaveSlot(parent, st1, false, []);
    IndexFrameTrans(st.index, st1.index, st2.index, {len}, {n.offset}, {n.offset, len});
    AddChildHolds(n, child, m, Slots(st.index), Slots(st1.index), Slots(st2.index), len, onLeft);
  }

  /** Table form of the equal-key branch: only the node's own record is
      rewritten, its children stay where they were. */
  lemma RewriteHolds(n: Tree, m: Tree, s0: nat -> Record, s1: nat -> Record, len: int)
    requires n.Node? && InFile(n, len) && Separate(n) && Holds(n, s0)
    requires m.Node? && m.offset == n.offset && m.left == n.left && m.right == n.right
    requires s1(n.offset) == RecordOf(m) && Keeps(s0, s1, len, {n.offset})
    ensures Holds(m, s1)
  {
    OtherSideApart(n, len, true);
    OtherSideApart(n, len, false);
    HoldsKept(n.left, s0, s1, len, {n.offset});
    HoldsKept(n.right, s0, s1, len, {n.offset});
  }

  /** The node's own slot is apart from every slot of its subtrees and
      from the end of the file. */
  lemma NodeApart(n: Tree, len: int, onLeft: bool)
    requires n.Node? && InFile(n, len) && Separate(n)
    ensures var child := if onLeft then n.left else n.right;
            && n.offset + NodeSize <= len
            && forall q :: q in Offsets(child) + {len} ==> Apart(n.offset, q)
  {
    assert n.offset in Offsets(n);
  }

  /** Slots all apart from another set's, and all inside the file, are
      apart from that set extended by the end of the file. */
  lemma SetsApart(other: set<int>, child: set<int>, len: int)
    requires forall p, q :: p in other && q in child ==> Apart(p, q)
    requires forall p :: p in other ==> p + NodeSize <= len
    ensures forall p, q :: p in other && q in child + {len} ==> Apart(p, q)
  {
  }

  /** The subtree `_put` leaves alone is apart from the one it descends
      into and from the end of the file. */
  lemma CrossApart(n: Tree, len: int, onLeft: bool)
    requires n.Node? && InFile(n, len) && Separate(n)
    ensures var child := if onLeft then n.left else n.right;
            var other := if onLeft then n.right else n.left;
            forall p, q :: p in Offsets(other) && q in Offsets(child) + {len} ==> Apart(p, q)
  {
    assert Offsets(n.left) <= Offsets(n) && Offsets(n.right) <= Offsets(n);
    if onLeft {
      SetsApart(Offsets(n.right), Offsets(n.left), len);
    } else {
      SetsApart(Offsets(n.left), Offsets(n.right), len);
    }
  }

  /** Generic form: a record at `o` and a subtree, both apart from every
      changed slot, survive a change that keeps all other slots. */
  lemma KeptApart(o: int, rec: Record, other: Tree, s0: nat -> Record, s1: nat -> Record, len: int, changed: set<int>)
    requires 0 <= o && o + NodeSize <= len && s0(o) == rec
    requires forall q :: q in changed ==> Apart(o, q)
    requires Holds(other, s0) && InFile(other, len)
    requires forall p, q :: p in Offsets(other) && q in changed ==> Apart(p, q)
    requires Keeps(s0, s1, len, changed)
    ensures s1(o) == rec && Holds(other, s1)
  {
    HoldsKept(other, s0, s1, len, changed);
  }

  /** While `_put` works below one child, the node's record and the other
      subtree keep their slots. */
  lemma DescendKeeps(n: Tree, s0: nat -> Record, s1: nat -> Record, len: int, onLeft: bool)
    requires n.Node? && InFile(n, len) && Separate(n) && Holds(n, s0)
    requires Keeps(s0, s1, len, Offsets(if onLeft then n.left else n.right) + {len})
    ensures n.offset >= 0 && s1(n.offset) == RecordOf(n)
    ensures Holds(if onLeft then n.right else n.left, s1)
  {
    var child := if onLeft then n.left else n.right;
    var other := if onLeft then n.right else n.left;
    NodeApart(n, len, onLeft);
    OtherSideApart(n, len, onLeft);
    CrossApart(n, len, onLeft);
    KeptApart(n.offset, RecordOf(n), other, s0, s1, len, Offsets(child) + {len});
  }

  /** Table form of the descending branch: the subtree below changed only
      inside its own slots and the new one, so the node's record and the
      other subtree are untouched. */
  lemma DescendHolds(n: Tree, sub: Tree, s0: nat -> Record, s1: nat -> Record, len: int, onLeft: bool)
    requires n.Node? && InFile(n, len) && Separate(n) && Holds(n, s0)
    requires var child := if onLeft then n.left else n.right;
             && child.Node? && sub.Node? && sub.offset == child.offset
             && Keeps(s0, s1, len, Offsets(child) + {len})
    requires Holds(sub, s1)
    ensures Holds(if onLeft then n.(left := sub) else n.(right := sub), s1)
  {
    DescendKeeps(n, s0, s1, len, onLeft);
  }

  /** Both subtrees of a stored node are stored. */
  lemma ChildrenStored(n: Tree, index: seq<byte>)
    requires n.Node? && Stored(n, index) && Separate(n)
    ensures Stored(n.left, index) && Stored(n.right, index)
    ensures Separate(n.left) && Separate(n.right)
  {
    OtherSideApart(n, |index|, true);
    OtherSideApart(n, |index|, false);
  }

  /** The storage facts `_put` keeps for a node: only slots of the subtree
      and the new slot at the end of the file are rewritten, the file grows
      by one record per added node, and the updated subtree is stored. */
  predicate PutKeepsStored(n: Tree, st: Store, r: (Tree, Store))
  {
    && IndexFrame(st.index, r.1.index, Offsets(n) + {|st.index|})
    && (Size(r.0) == Size(n) || Size(r.0) == Size(n) + 1)
    && |r.1.index| == (if Size(r.0) == Size(n) then |st.index| else |st.index| + NodeSize)
    && Holds(r.0, Slots(r.1.index))
  }

  lemma AddChildStep(n: Tree, st: Store, key: int, value: seq<byte>, policy: OverwritePolicy, onLeft: bool)
    requires n.Node? && PutAt(n, st, key, value, policy).Success?
    requires Stored(n, st.index) && Separate(n)
    requires onLeft ==> key < n.key && n.left.Nil?
    requires !onLeft ==> key > n.key && n.right.Nil?
    ensures PutKeepsStored(n, st, PutAt(n, st, key, value, policy).value)
  {
    var len := |st.index|;
    assert PutAt(n, st, key, value, policy) == AddChild(n, st, key, value, onLeft);
    var (n', st') := AddChild(n, st, key, value, onLeft).value;
    assert n.offset in Offsets(n);
    AddChildStored(n, st, key, value, onLeft);
    IndexFrameMono(st.index, st'.index, {n.offset, len}, Offsets(n) + {len});
  }

  lemma DescendStep(n: Tree, st: Store, key: int, value: seq<byte>, policy: OverwritePolicy, onLeft: bool)
    requires n.Node? && PutAt(n, st, key, value, policy).Success?
    requires Stored(n, st.index) && Separate(n)
    requires onLeft ==> key < n.key && n.left.Node?
    requires !onLeft ==> key > n.key && n.right.Node?
    requires var child := if onLeft then n.left else n.right;
             && PutAt(child, st, key, value, policy).Success?
             && PutKeepsStored(child, st, PutAt(child, st, key, value, policy).value)
    ensures PutKeepsStored(n, st, PutAt(n, st, key, value, policy).value)
  {
    var len := |st.index|;
    var child := if onLeft then n.left else n.right;
    var (sub, st1) := PutAt(child, st, key, value, policy).value;
    InsertedKeys(child, key, value, policy, len, |st.heap|);
    FrameKeeps(st.index, st1.index, Offsets(child) + {len});
    DescendHolds(n, sub, Slots(st.index), Slots(st1.index), len, onLeft);
    assert n.offset in Offsets(n);
    IndexFrameMono(st.index, st1.index, Offsets(child) + {len}, Offsets(n) + {len});
  }

  lemma EqualKeyStep(n: Tree, st: Store, key: int, value: seq<byte>, policy: OverwritePolicy)
    requires n.Node? && key == n.key && PutAt(n, st, key, value, policy).Success?
    requires Stored(n, st.index) && Separate(n)
    ensures PutKeepsStored(n, st, PutAt(n, st, key, value, policy).value)
  {
    var len := |st.index|;
    var (n', st') := PutAt(n, st, key, value, policy).value;
    var m := Overwritten(n, value, policy);
    assert n.offset in Offsets(n);
    SaveSlot(m, st, true, value);
    RewriteHolds(n, n', Slots(st.index), Slots(st'.index), len);
    IndexFrameMono(st.index, st'.index, {n.offset}, Offsets(n) + {len});
  }

  /** `_put` on a stored node keeps it stored (see `PutKeepsStored`). */
  lemma {:induction false} PutAtStored(n: Tree, st: Store, key: int, value: seq<byte>, policy: OverwritePolicy)
    requires n.Node? && PutAt(n, st, key, value, policy).Success?
    requires Stored(n, st.index) && Separate(n)
    ensures PutKeepsStored(n, st, PutAt(n, st, key, value, policy).value)
    decreases n
  {
    if key < n.key && n.left.Nil? {
      AddChildStep(n, st, key, value, policy, true);
    } else if key > n.key && n.right.Nil? {
      AddChildStep(n, st, key, value, policy, false);
    } else if key < n.key || key > n.key {
      var onLeft := key < n.key;
      var child := if onLeft then n.left else n.right;
      ChildrenStored(n, st.index);
      PutAtStored(child, st, key, value, policy);
      DescendStep(n, st, key, value, policy, onLeft);
    } else {
      EqualKeyStep(n, st, key, value, policy);
    }
  }

  /** What `_put` does to the heap: it never shrinks, and a new key or an
      appended overwrite adds exactly the value and its separator at the end. */
  predicate PutKeepsHeap(n: Tree, st: Store, key: int, value: seq<byte>, policy: OverwritePolicy, r: (Tree, Store))
  {
    && |r.1.heap| >= |st.heap|
    && (policy == Append || key !in Keys(n) ==>
          0 < |value| && r.1.heap == st.heap + value + [RecordSeparator])
  }

  /** Saving a node that has no value yet appends its value; the save fails
      for an empty value, whose length -1 does not fit the unsigned field. */
  lemma SaveFreshValue(n: Tree, st: Store, value: seq<byte>)
    requires n.Node? && n.valueOffset == NoValue && n.valueSize == ValueSize(value)
    requires Save(n, st, true, value).Success?
    ensures 0 < |value|
    ensures Save(n, st, true, value).value.1.heap == st.heap + value + [RecordSeparator]
  {
    var (m, st') := Save(n, st, true, value).value;
    assert Encodable(RecordOf(m));
  }

  lemma {:induction false} PutAtHeap(n: Tree, st: Store, key: int, value: seq<byte>, policy: OverwritePolicy)
    requires n.Node? && Ordered(n) && PutAt(n, st, key, value, policy).Success?
    ensures PutKeepsHeap(n, st, key, value, policy, PutAt(n, st, key, value, policy).value)
    decreases n
  {
    if key < n.key || key > n.key {
      var onLeft := key < n.key;
      var child := if onLeft then n.left else n.right;
      assert key !in Keys(n) <==> key !in Keys(child);
      if child.Nil? {
        var leaf := NewNode(|st.index|, key, value);
        SaveFreshValue(leaf, st, value);
        var (c, st1) := Save(leaf, st, true, value).value;
        var parent := if onLeft then n.(left := c) else n.(right := c);
        assert PutAt(n, st, key, value, policy) == Save(parent, st1, false, []);
      } else {
        PutAtHeap(child, st, key, value, policy);
      }
    } else if policy == Append {
      SaveFreshValue(Overwritten(n, value, policy), st, value);
    }
  }

  /** Writes after the header leave the header's bytes alone. */
  lemma HeaderKept(a: seq<byte>, b: seq<byte>, changed: set<int>)
    requires IndexFrame(a, b, changed) && |a| >= HeaderSize
    requires forall p :: p in changed ==> p >= HeaderSize
    ensures b[..HeaderSize] == a[..HeaderSize]
  {
    forall i | 0 <= i < HeaderSize
      ensures b[i] == a[i]
    {
      assert OutsideAll(i, changed);
    }
  }

  /** Writing one slot past the header keeps the header zeroed. */
  lemma ZeroHeaderKept(a: seq<byte>, b: seq<byte>, offset: int)
    requires |a| >= HeaderSize && a[..HeaderSize] == Zeros(HeaderSize)
    requires offset >= HeaderSize && IndexFrame(a, b, {offset})
    ensures b[..HeaderSize] == Zeros(HeaderSize)
  {
    HeaderKept(a, b, {offset});
  }

  /** Where the slots of the updated tree lie: the old slots plus, for a
      new key, the slot that now ends the file. */
  lemma InsertedLayout(t: Tree, key: int, value: seq<byte>, policy: OverwritePolicy, len: int, heapLen: int)
    requires Ordered(t) && InFile(t, len) && Separate(t) && len >= HeaderSize
    ensures var t' := Inserted(t, key, value, policy, len, heapLen);
            var len' := if key in Keys(t) then len else len + NodeSize;
            && InFile(t', len') && Separate(t')
            && (key in Keys(t) ==> Size(t') == Size(t))
            && (key !in Keys(t) ==> Size(t') == Size(t) + 1)
  {
    var t' := Inserted(t, key, value, policy, len, heapLen);
    if key in Keys(t) {
      InsertedExisting(t, key, value, policy, len, heapLen);
    } else {
      InsertedNew(t, key, value, policy, len, heapLen);
    }
    InsertedSeparate(t, key, value, policy, len, heapLen);
  }

  /** The index half of `put` on a non-empty tree: the header stays zero,
      the file grows by one slot exactly for a new key, and every node of
      the new tree is in its own slot. */
  lemma PutNodeIndex(t: Tree, st: Store, key: int, value: seq<byte>, policy: OverwritePolicy)
    requires Inv(t, st) && t.Node? && PutAt(t, st, key, value, policy).Success?
    ensures var r := PutAt(t, st, key, value, policy).value;
            && |r.1.index| == (if key in Keys(t) then |st.index| else |st.index| + NodeSize)
            && r.1.index[..HeaderSize] == Zeros(HeaderSize)
            && Stored(r.0, r.1.index) && Separate(r.0)
  {
    var len := |st.index|;
    var r := PutAt(t, st, key, value, policy).value;
    PutAtStored(t, st, key, value, policy);
    InsertedLayout(t, key, value, policy, len, |st.heap|);
    HeaderKept(st.index, r.1.index, Offsets(t) + {len});
  }

  /** The tree and heap half of `put` on a non-empty tree: the root stays,
      the ordering holds and every value lies in the heap. */
  lemma PutNodeTree(t: Tree, st: Store, key: int, value: seq<byte>, policy: OverwritePolicy)
    requires Inv(t, st) && t.Node? && PutAt(t, st, key, value, policy).Success?
    ensures var r := PutAt(t, st, key, value, policy).value;
            && r.0.Node? && r.0.offset == RootOffset && Ordered(r.0)
            && ValuesInHeap(r.0, |r.1.heap|)
            && PutKeepsHeap(t, st, key, value, policy, r)
  {
    var len, hlen := |st.index|, |st.heap|;
    var r := PutAt(t, st, key, value, policy).value;
    PutAtHeap(t, st, key, value, policy);
    InsertedKeys(t, key, value, policy, len, hlen);
    InsertedOrdered(t, key, value, policy, len, hlen);
    InsertedValues(t, key, value, policy, len, hlen, |r.1.heap|);
  }

  /** `put` on a non-empty tree keeps the session invariant. */
  lemma PutNodeInv(t: Tree, st: Store, key: int, value: seq<byte>, policy: OverwritePolicy)
    requires Inv(t, st) && t.Node? && Put(t, st, key, value, policy).Success?
    ensures var r := Put(t, st, key, value, policy).value;
            && Inv(r.0, r.1)
            && |r.1.index| == (if key in Keys(t) then |st.index| else |st.index| + NodeSize)
            && PutKeepsHeap(t, st, key, value, policy, r)
  {
    PutNodeIndex(t, st, key, value, policy);
    PutNodeTree(t, st, key, value, policy);
  }

  /** A leaf whose record is in its slot, inside the file, is stored. */
  lemma LeafStored(leaf: Tree, index: seq<byte>)
    requires leaf.Node? && leaf.left.Nil? && leaf.right.Nil?
    requires HeaderSize <= leaf.offset && leaf.offset + NodeSize <= |index|
    requires Slots(index)(leaf.offset) == RecordOf(leaf)
    ensures Stored(leaf, index)
  {
    assert Offsets(leaf) == {leaf.offset};
  }

  /** A store whose index is the header plus the root leaf's record, and
      whose heap holds the leaf's value, satisfies the invariant. */
  lemma LeafInv(leaf: Tree, st: Store)
    requires leaf.Node? && leaf.offset == RootOffset && leaf.left.Nil? && leaf.right.Nil?
    requires |st.index| == HeaderSize + NodeSize && st.index[..HeaderSize] == Zeros(HeaderSize)
    requires Slots(st.index)(leaf.offset) == RecordOf(leaf)
    requires 0 <= leaf.valueOffset && 1 <= leaf.valueSize && leaf.valueOffset + leaf.valueSize <= |st.heap|
    ensures Inv(leaf, st)
  {
    LeafStored(leaf, st.index);
  }

  /** The first leaf and its value, as `Save` leaves them. */
  lemma RootSavedNode(st: Store, key: int, value: seq<byte>)
    requires Save(NewNode(|st.index|, key, value), st, true, value).Success?
    ensures var r := Save(NewNode(|st.index|, key, value), st, true, value).value;
            && r.0 == Node(|st.index|, key, ValueSize(value), |st.heap|, Nil, Nil)
            && 0 < |value|
            && r.1.heap == st.heap + value + [RecordSeparator]
  {
    SaveFreshValue(NewNode(|st.index|, key, value), st, value);
  }

  /** Saving the first leaf appends one record to the header. */
  lemma RootSavedLength(st: Store, key: int, value: seq<byte>)
    requires |st.index| == HeaderSize
    requires Save(NewNode(|st.index|, key, value), st, true, value).Success?
    ensures |Save(NewNode(|st.index|, key, value), st, true, value).value.1.index| == HeaderSize + NodeSize
  {
    SaveSlot(NewNode(|st.index|, key, value), st, true, value);
  }

  /** The slot at the old end of the index holds the first leaf's record. */
  lemma RootSavedSlot(st: Store, key: int, value: seq<byte>)
    requires Save(NewNode(|st.index|, key, value), st, true, value).Success?
    ensures var r := Save(NewNode(|st.index|, key, value), st, true, value).value;
            Slots(r.1.index)(|st.index|) == RecordOf(r.0)
  {
    var r := Save(NewNode(|st.index|, key, value), st, true, value).value;
    WriteRecordSlot(st.index, |st.index|, RecordOf(r.0));
  }

  /** Saving the first leaf leaves the zeroed header as it was. */
  lemma RootSavedHeader(st: Store, key: int, value: seq<byte>)
    requires |st.index| == HeaderSize && st.index[..HeaderSize] == Zeros(HeaderSize)
    requires Save(NewNode(|st.index|, key, value), st, true, value).Success?
    ensures Save(NewNode(|st.index|, key, value), st, true, value).value.1.index[..HeaderSize] == Zeros(HeaderSize)
  {
    var r := Save(NewNode(|st.index|, key, value), st, true, value).value;
    WriteRecordSlot(st.index, |st.index|, RecordOf(r.0));
    ZeroHeaderKept(st.index, r.1.index, |st.index|);
  }

  /** Saving the first leaf into a header-only index yields a store that
      satisfies the invariant with that leaf as the root. */
  lemma RootSavedInv(st: Store, key: int, value: seq<byte>)
    requires |st.index| == HeaderSize && st.index[..HeaderSize] == Zeros(HeaderSize)
    requires Save(NewNode(|st.index|, key, value), st, true, value).Success?
    ensures var r := Save(NewNode(|st.index|, key, value), st, true, value).value;
            && Inv(r.0, r.1)
            && |r.1.index| == |st.index| + NodeSize
            && 0 < |value| && r.1.heap == st.heap + value + [RecordSeparator]
  {
    var r := Save(NewNode(|st.index|, key, value), st, true, value).value;
    RootSavedNode(st, key, value);
    RootSavedLength(st, key, value);
    RootSavedSlot(st, key, value);
    RootSavedHeader(st, key, value);
    LeafInv(r.0, r.1);
  }

  /** `put` on an empty tree writes the root record right after the header. */
  lemma PutRootInv(st: Store, key: int, value: seq<byte>, policy: OverwritePolicy)
    requires Inv(Nil, st) && Put(Nil, st, key, value, policy).Success?
    ensures var r := Put(Nil, st, key, value, policy).value;
            && Inv(r.0, r.1)
            && |r.1.index| == |st.index| + NodeSize
            && PutKeepsHeap(Nil, st, key, value, policy, r)
  {
    RootSavedInv(st, key, value);
  }

  /** What any successful `put` does to the heap. */
  lemma PutHeap(t: Tree, st: Store, key: int, value: seq<byte>, policy: OverwritePolicy)
    requires Ordered(t) && Put(t, st, key, value, policy).Success?
    ensures PutKeepsHeap(t, st, key, value, policy, Put(t, st, key, value, policy).value)
  {
    if t.Nil? {
      RootSavedNode(st, key, value);
    } else {
      PutAtHeap(t, st, key, value, policy);
    }
  }

  /** Every successful `put` keeps the session invariant, adds the key, and
      grows the index by one record exactly when the key is new. */
  lemma PutKeepsInv(t: Tree, st: Store, key: int, value: seq<byte>, policy: OverwritePolicy)
    requires Inv(t, st) && Put(t, st, key, value, policy).Success?
    ensures var r := Put(t, st, key, value, policy).value;
            && Inv(r.0, r.1)
            && Keys(r.0) == Keys(t) + {key}
            && |r.1.index| == (if key in Keys(t) then |st.index| else |st.index| + NodeSize)
            && PutKeepsHeap(t, st, key, value, policy, r)
  {
    InsertedKeys(t, key, value, policy, |st.index|, |st.heap|);
    if t.Nil? {
      PutRootInv(st, key, value, policy);
    } else {
      PutNodeInv(t, st, key, value, policy);
    }
  }
}

=== FILE: findings.dfy ===
/** Two behaviours of the store as written that its users would not expect,
    each next to the definition the rest of the model relies on instead. */
module Findings {
  import opened Bytes
  import opened Layout
  import opened Results
  import opened NodeRecord
  import opened Trees
  import opened DiskStore
  import opened Search
  import opened Insert
  import opened Persistence
  import opened Durable
  import opened Session

  // ---------------------------------------------------------------------
  // Overwriting a key in place keeps the old value's length.
  // ---------------------------------------------------------------------

  /** Under `InPlace`, re-putting an existing key leaves its node exactly
      as it was, so `get` still reads the old offset and the old length. */
  lemma {:induction false} GetInPlaceExisting(t: Tree, heap: seq<byte>, key: int, value: seq<byte>, indexLen: int, heapLen: int)
    requires Ordered(t) && key in Keys(t) && ValuesInHeap(t, |heap|)
    ensures Get(Inserted(t, key, value, InPlace, indexLen, heapLen), heap, key) == Get(t, heap, key)
  {
    match t
    case Nil =>
    case Node(_, k, _, _, l, rt) =>
      if key < k {
        GetInPlaceExisting(l, heap, key, value, indexLen, heapLen);
      } else if key > k {
        GetInPlaceExisting(rt, heap, key, value, indexLen, heapLen);
      }
  }

  /** Growing the heap does not change whether `get` finds a value nor how
      long that value is, for a tree whose values lie in the old heap. */
  lemma {:induction false} GetKeepsLength(t: Tree, heap: seq<byte>, heap': seq<byte>, key: int)
    requires ValuesInHeap(t, |heap|) && |heap| <= |heap'|
    ensures Get(t, heap, key).Success? && Get(t, heap', key).Success?
    ensures Get(t, heap', key).value.Some? <==> Get(t, heap, key).value.Some?
    ensures Get(t, heap, key).value.Some? ==> |Get(t, heap', key).value.value| == |Get(t, heap, key).value.value|
  {
    match t
    case Nil =>
    case Node(_, k, _, _, l, rt) =>
      if key < k {
        GetKeepsLength(l, heap, heap', key);
      } else if key > k {
        GetKeepsLength(rt, heap, heap', key);
      }
  }

  /** As written, `put` on an existing key writes the new bytes over the old
      value without updating its length: a later `get` returns as many bytes
      as the OLD value had, so any value of a different length comes back
      wrong (a shorter one followed by its separator and the old tail). */
  lemma InPlaceOverwriteKeepsOldLength(t: Tree, st: Store, key: int, value: seq<byte>, previous: seq<byte>)
    requires Inv(t, st) && Put(t, st, key, value, InPlace).Success?
    requires Get(t, st.heap, key) == Success(Some(previous))
    ensures var r := Put(t, st, key, value, InPlace).value;
            var got := Get(r.0, r.1.heap, key);
            && got.Success? && got.value.Some? && |got.value.value| == |previous|
            && (|value| != |previous| ==> got != Success(Some(value)))
  {
    var r := Put(t, st, key, value, InPlace).value;
    PutHeap(t, st, key, value, InPlace);
    ValuesInLargerHeap(t, |st.heap|, |r.1.heap|);
    GetInPlaceExisting(t, r.1.heap, key, value, |st.index|, |st.heap|);
    GetKeepsLength(t, st.heap, r.1.heap, key);
  }

  /** "hello" and "hi" as the bytes `put` receives. */
  const Hello: seq<byte> := [104, 101, 108, 108, 111]
  const Hi: seq<byte> := [104, 105]

  /** On a fresh store, `put(1, "hello")` creates the root with a 6-byte
      value slot at the start of the heap, and `get(1)` reads "hello". */
  lemma FirstPutExample()
    ensures var r1 := Put(Nil, EmptyStore(), 1, Hello, InPlace);
            && r1.Success?
            && r1.value.0 == Node(RootOffset, 1, 6, 0, Nil, Nil)
            && Inv(r1.value.0, r1.value.1)
            && Get(r1.value.0, r1.value.1.heap, 1) == Success(Some(Hello))
  {
    EmptyStoreInv();
    assert Encodable(RecordOf(SavedLeaf(HeaderSize, 0, 1, Hello)));
    PutThenGet(Nil, EmptyStore(), 1, Hello, InPlace);
    PutKeepsInv(Nil, EmptyStore(), 1, Hello, InPlace);
  }

  /** A second `put(1, "hi")` on that root succeeds on any store. */
  lemma SecondPutExample(st: Store)
    ensures Put(Node(RootOffset, 1, 6, 0, Nil, Nil), st, 1, Hi, InPlace).Success?
  {
    assert Encodable(RecordOf(Node(RootOffset, 1, 6, 0, Nil, Nil)));
  }

  /** The concrete case: on a fresh store, `put(1, "hello")` then
      `put(1, "hi")` succeed, and `get(1)` returns five bytes, not "hi". */
  lemma ShorterOverwriteExample()
    ensures var r1 := Put(Nil, EmptyStore(), 1, Hello, InPlace);
            && r1.Success?
            && var r2 := Put(r1.value.0, r1.value.1, 1, Hi, InPlace);
            && r2.Success?
            && Get(r2.value.0, r2.value.1.heap, 1) != Success(Some(Hi))
  {
    FirstPutExample();
    var r1 := Put(Nil, EmptyStore(), 1, Hello, InPlace).value;
    SecondPutExample(r1.1);
    InPlaceOverwriteKeepsOldLength(r1.0, r1.1, 1, Hi, Hello);
  }

  // ---------------------------------------------------------------------
  // Overwriting a key in place with a longer value corrupts its neighbour.
  // ---------------------------------------------------------------------

  /** "a", "b" and "xyz" as the bytes `put` receives. */
  const A: seq<byte> := [97]
  const B: seq<byte> := [98]
  const Xyz: seq<byte> := [120, 121, 122]

  /** What `put(1, "a")` then `put(2, "b")` leave on a fresh store: the root
      at 128 with "a" at heap offset 0, its right child at 388 with "b" at
      heap offset 2, each value 2 bytes long with its separator. */
  const TwoKeys: Tree := Node(RootOffset, 1, 2, 0, Nil, Node(RootOffset + NodeSize, 2, 2, 2, Nil, Nil))
  const TwoValues: seq<byte> := [97, 10, 98, 10]

  /** `put(1, "a")` on a store holding only the header succeeds: the root's
      record fits its fields. */
  lemma FirstOfTwoSucceeds(st: Store)
    requires |st.index| == HeaderSize && st.heap == []
    ensures Put(Nil, st, 1, A, InPlace).Success?
  {
    assert Encodable(RecordOf(SavedLeaf(HeaderSize, 0, 1, A)));
  }

  /** It makes the root at 128 with "a" and its separator as the whole heap. */
  lemma FirstOfTwoPuts(st: Store)
    requires |st.index| == HeaderSize && st.heap == []
    ensures var r1 := Put(Nil, st, 1, A, InPlace);
            && r1.Success?
            && r1.value.0 == Node(RootOffset, 1, 2, 0, Nil, Nil)
            && r1.value.1.heap == [97, 10]
            && |r1.value.1.index| == RootOffset + NodeSize
  {
    FirstOfTwoSucceeds(st);
    RootSavedNode(st, 1, A);
    RootSavedLength(st, 1, A);
  }

  /** `put(2, "b")` on that root succeeds on any store small enough for the
      new offsets to fit: the new leaf's record and the parent's updated
      record both fit their fields. */
  lemma SecondOfTwoSucceeds(st: Store)
    requires RootOffset <= |st.index| < 0x1_0000 && |st.heap| < 0x1_0000
    ensures Put(Node(RootOffset, 1, 2, 0, Nil, Nil), st, 2, B, InPlace).Success?
  {
    var n := Node(RootOffset, 1, 2, 0, Nil, Nil);
    var leaf := SavedLeaf(|st.index|, |st.heap|, 2, B);
    SmallEncodable(RecordOf(leaf));
    var (child, st1) := Save(NewNode(|st.index|, 2, B), st, true, B).value;
    assert child == leaf;
    SmallEncodable(RecordOf(n.(right := leaf)));
  }

  /** It adds the right child at the end of the index, with its value at
      the end of the heap. */
  lemma SecondOfTwoTree(st: Store)
    requires |st.index| == RootOffset + NodeSize && |st.heap| == 2
    ensures var r2 := Put(Node(RootOffset, 1, 2, 0, Nil, Nil), st, 2, B, InPlace);
            r2.Success? ==> r2.value.0 == TwoKeys
  {
  }

  /** A new key that becomes the root's right child appends its value and
      separator to the heap. */
  lemma RightLeafHeap(n: Tree, st: Store, key: int, value: seq<byte>)
    requires n.Node? && n.right.Nil? && key > n.key
    requires Put(n, st, key, value, InPlace).Success?
    ensures Put(n, st, key, value, InPlace).value.1.heap == st.heap + value + [RecordSeparator]
  {
    SaveFreshValue(NewNode(|st.index|, key, value), st, value);
  }

  /** It appends "b" and its separator to the heap. */
  lemma SecondOfTwoHeap(st: Store)
    requires Put(Node(RootOffset, 1, 2, 0, Nil, Nil), st, 2, B, InPlace).Success?
    ensures Put(Node(RootOffset, 1, 2, 0, Nil, Nil), st, 2, B, InPlace).value.1.heap == st.heap + [98, 10]
  {
    RightLeafHeap(Node(RootOffset, 1, 2, 0, Nil, Nil), st, 2, B);
    assert st.heap + B + [RecordSeparator] == st.heap + [98, 10];
  }

  /** So on the store the first `put` leaves, it yields the two-node tree
      and the heap "a\nb\n". */
  lemma SecondOfTwoPuts(st: Store)
    requires |st.index| == RootOffset + NodeSize && st.heap == [97, 10]
    ensures var r2 := Put(Node(RootOffset, 1, 2, 0, Nil, Nil), st, 2, B, InPlace);
            && r2.Success?
            && r2.value.0 == TwoKeys && r2.value.1.heap == TwoValues
  {
    SecondOfTwoSucceeds(st);
    SecondOfTwoTree(st);
    SecondOfTwoHeap(st);
  }

  /** On a fresh store, `put(1, "a")` and `put(2, "b")` succeed and leave
      exactly that tree and heap. */
  lemma TwoPutsExample()
    ensures var r1 := Put(Nil, EmptyStore(), 1, A, InPlace);
            && r1.Success?
            && var r2 := Put(r1.value.0, r1.value.1, 2, B, InPlace);
            && r2.Success?
            && r2.value.0 == TwoKeys && r2.value.1.heap == TwoValues
  {
    FirstOfTwoPuts(EmptyStore());
    SecondOfTwoPuts(Put(Nil, EmptyStore(), 1, A, InPlace).value.1);
  }

  /** In that tree `get(2)` reads the two bytes at heap offset 2 and drops
      the second: whatever byte sits at offset 2. */
  lemma GetTwoReadsOffsetTwo(heap: seq<byte>)
    requires |heap| == 4
    ensures Get(TwoKeys, heap, 2) == Success(Some([heap[2]]))
  {
    assert TwoKeys.right == Node(RootOffset + NodeSize, 2, 2, 2, Nil, Nil);
    assert heap[2..3] == [heap[2]];
  }

  /** As written, overwriting key 1 of that store with the longer "xyz"
      keeps the tree and writes "xyz" and its separator over "a\nb\n",
      whatever the index holds. */
  lemma LongerOverwriteHeap(index: seq<byte>)
    ensures var r := Put(TwoKeys, Store(index, TwoValues), 1, Xyz, InPlace);
            && r.Success?
            && r.value.0 == TwoKeys
            && r.value.1.heap == [120, 121, 122, 10]
  {
    assert Encodable(RecordOf(TwoKeys));
    assert WriteAt(TwoValues, 0, Xyz + [RecordSeparator]) == [120, 121, 122, 10];
  }

  /** So the neighbour's bytes are gone: `get(2)` answers "b" before the
      overwrite and "z" after it. */
  lemma LongerOverwriteExample(index: seq<byte>)
    ensures Get(TwoKeys, TwoValues, 2) == Success(Some(B))
    ensures var r := Put(TwoKeys, Store(index, TwoValues), 1, Xyz, InPlace);
            && r.Success?
            && Get(r.value.0, r.value.1.heap, 2) == Success(Some([122]))
  {
    GetTwoReadsOffsetTwo(TwoValues);
    LongerOverwriteHeap(index);
    GetTwoReadsOffsetTwo([120, 121, 122, 10]);
  }

  /** The concrete case end to end: `put(1, "a")`, `put(2, "b")`,
      `put(1, "xyz")` on a fresh store, after which `get(2)` no longer
      returns "b", although key 2 was never written again. */
  lemma NeighbourOverwriteExample()
    ensures var r1 := Put(Nil, EmptyStore(), 1, A, InPlace);
            && r1.Success?
            && var r2 := Put(r1.value.0, r1.value.1, 2, B, InPlace);
            && r2.Success?
            && Get(r2.value.0, r2.value.1.heap, 2) == Success(Some(B))
            && var r3 := Put(r2.value.0, r2.value.1, 1, Xyz, InPlace);
            && r3.Success?
            && Get(r3.value.0, r3.value.1.heap, 2) != Get(r2.value.0, r2.value.1.heap, 2)
  {
    TwoPutsExample();
    var r1 := Put(Nil, EmptyStore(), 1, A, InPlace).value;
    var r2 := Put(r1.0, r1.1, 2, B, InPlace).value;
    LongerOverwriteExample(r2.1.index);
    assert r2.1 == Store(r2.1.index, TwoValues);
  }

  // ---------------------------------------------------------------------
  // Reopening an index that holds only its header never terminates.
  // ---------------------------------------------------------------------

  /** The slot at offset 0 or 128 of a header-only index is cut short by the
      end of the file, so its left-offset field is empty and decodes to 0. */
  lemma ShortSlotLeftIsZero(index: seq<byte>, offset: nat)
    requires |index| == HeaderSize && (offset == HeaderOffset || offset == RootOffset)
    ensures Slots(index)(offset).leftOffset == 0
  {
    var data := ReadAt(index, offset, NodeSize);
    assert |data| <= HeaderSize;
    assert Slice(data, LeftAt, RightAt) == [];
  }

  /** Loading offset 0 of a header-only index reads the header as a record
      whose left child is offset 0 again: the recursion ends only when the
      recursion budget is gone. */
  lemma {:induction false} HeaderLoopsForever(index: seq<byte>, fuel: nat)
    requires |index| == HeaderSize
    ensures LoadFrom(Slots(index), HeaderOffset, fuel) == Failure(RecursionLimit)
  {
    if fuel > 0 {
      ShortSlotLeftIsZero(index, HeaderOffset);
      HeaderLoopsForever(index, fuel - 1);
    }
  }

  /** As written, opening a store whose index holds just the header (as
      left by creating a store and closing it without any `put`) fails with
      the recursion limit whatever the budget; the checked open gives the
      empty tree the session had. */
  lemma OpenHeaderOnlyFails(st: Store, fuel: nat)
    requires |st.index| == HeaderSize
    ensures Open(st, fuel) == Failure(RecursionLimit)
    ensures OpenChecked(st, fuel) == Success((st, Nil))
  {
    if fuel > 0 {
      ShortSlotLeftIsZero(st.index, RootOffset);
      HeaderLoopsForever(st.index, fuel - 1);
      assert LoadChild(Slots(st.index), HeaderOffset, fuel - 1) == Failure(RecursionLimit);
    }
    assert Load(st.index, RootOffset, fuel) == Failure(RecursionLimit);
  }

  /** The concrete case: the store `BST` creates on first use cannot be
      reopened as written, while the checked open and the invariant agree
      that it holds the empty tree. */
  lemma ReopenFreshStoreExample(fuel: nat)
    ensures Open(EmptyStore(), fuel) == Failure(RecursionLimit)
    ensures OpenChecked(EmptyStore(), fuel) == Success((EmptyStore(), Nil))
  {
    OpenHeaderOnlyFails(EmptyStore(), fuel);
  }
}

=== FILE: insert.dfy ===
/** Insertion (`BST.put` / `_put`): unbalanced descent, a new node appended
    at the end of the index store, the parent's child offset updated. */
module Insert {
  import opened Bytes
  import opened Layout
  import opened Results
  import opened Trees
  import opened DiskStore

  /** What saving an existing key's new value does with the heap:
      - InPlace: keep the old value offset and length and write the new
        bytes over the old ones, as written in bst.py;
      - Append: forget the old slot and append a fresh heap record with the
        new length, as a reader of the value expects. */
  datatype OverwritePolicy = InPlace | Append

  /** The node the equal-key branch hands to `save` under each policy: only
      its value fields may differ. In place it keeps the old offset and the
      old length; appending, it has no offset yet and the new value's length. */
  function Overwritten(n: Tree, value: seq<byte>, policy: OverwritePolicy): (r: Tree)
    requires n.Node?
    ensures r.Node? && r == n.(valueOffset := r.valueOffset, valueSize := r.valueSize)
    ensures policy == InPlace ==> r.valueOffset == n.valueOffset && r.valueSize == n.valueSize
    ensures policy == Append ==> r.valueOffset == NoValue && r.valueSize == ValueSize(value)
  {
    match policy
    case InPlace => n
    case Append => n.(valueOffset := NoValue, valueSize := ValueSize(value))
  }

  /** The node of an existing key after its value is saved: a missing value
      offset is allocated at the end of the heap. */
  function Refreshed(n: Tree, value: seq<byte>, policy: OverwritePolicy, heapLen: int): Tree
    requires n.Node?
  {
    var m := Overwritten(n, value, policy);
    m.(valueOffset := if m.valueOffset == NoValue then heapLen else m.valueOffset)
  }

  /** The leaf `_put` creates for a new key, once saved: at the end of the
      index store, with its value at the end of the heap. */
  function SavedLeaf(indexLen: int, heapLen: int, key: int, value: seq<byte>): Tree
  {
    Node(indexLen, key, ValueSize(value), heapLen, Nil, Nil)
  }

  /** Plain binary search tree insertion without rebalancing: the tree that
      a successful `put` leaves in memory. */
  function Inserted(t: Tree, key: int, value: seq<byte>, policy: OverwritePolicy, indexLen: int, heapLen: int): Tree
  {
    match t
    case Nil => SavedLeaf(indexLen, heapLen, key, value)
    case Node(_, k, _, _, l, r) =>
      if key < k then t.(left := Inserted(l, key, value, policy, indexLen, heapLen))
      else if key > k then t.(right := Inserted(r, key, value, policy, indexLen, heapLen))
      else Refreshed(t, value, policy, heapLen)
  }

  /** The missing-child branch of `_put`: create the new node at the end of
      the index, save it with its value, point the parent at it and re-save
      the parent without rewriting the parent's value. */
  function AddChild(n: Tree, st: Store, key: int, value: seq<byte>, onLeft: bool): (r: Result<(Tree, Store), Error>)
    requires n.Node?
    ensures r.Success? ==>
              var m := r.value.0;
              && m.Node? && m.offset == n.offset && m.key == n.key
              && m.valueSize == n.valueSize && m.valueOffset == n.valueOffset
              && (onLeft ==> m.left == SavedLeaf(|st.index|, |st.heap|, key, value) && m.right == n.right)
              && (!onLeft ==> m.right == SavedLeaf(|st.index|, |st.heap|, key, value) && m.left == n.left)
  {
    var (child, st1) :- Save(NewNode(|st.index|, key, value), st, true, value);
    var parent := if onLeft then n.(left := child) else n.(right := child);
    Save(parent, st1, false, [])
  }

  /** `_put` on a node: recurse towards the key; at a missing child add the
      new node there; on an equal key save the node with the new value. */
  function PutAt(n: Tree, st: Store, key: int, value: seq<byte>, policy: OverwritePolicy): (r: Result<(Tree, Store), Error>)
    requires n.Node?
    ensures r.Success? ==> r.value.0 == Inserted(n, key, value, policy, |st.index|, |st.heap|)
    decreases n
  {
    if key < n.key then
      if n.left.Nil? then AddChild(n, st, key, value, true)
      else
        var (l, st1) :- PutAt(n.left, st, key, value, policy);
        Success((n.(left := l), st1))
    else if key > n.key then
      if n.right.Nil? then AddChild(n, st, key, value, false)
      else
        var (rt, st1) :- PutAt(n.right, st, key, value, policy);
        Success((n.(right := rt), st1))
    else
      Save(Overwritten(n, value, policy), st, true, value)
  }

  /** `put`: the first key becomes the root at the current end of the index
      store; later keys go through `PutAt`. */
  function Put(t: Tree, st: Store, key: int, value: seq<byte>, policy: OverwritePolicy): (r: Result<(Tree, Store), Error>)
    ensures r.Success? ==> r.value.0 == Inserted(t, key, value, policy, |st.index|, |st.heap|)
  {
    if t.Nil? then Save(NewNode(|st.index|, key, value), st, true, value)
    else PutAt(t, st, key, value, policy)
  }

  lemma {:induction false} SameShapeRefl(t: Tree)
    ensures SameShape(t, t)
  {
    if t.Node? {
      SameShapeRefl(t.left);
      SameShapeRefl(t.right);
    }
  }

  /** Insertion adds the key and nothing else, and keeps the root node. */
  lemma {:induction false} InsertedKeys(t: Tree, key: int, value: seq<byte>, policy: OverwritePolicy, indexLen: int, heapLen: int)
    ensures var t' := Inserted(t, key, value, policy, indexLen, heapLen);
            && t'.Node?
            && (t.Node? ==> t'.offset == t.offset && t'.key == t.key)
            && Keys(t') == Keys(t) + {key}
  {
    match t
    case Nil =>
    case Node(_, k, _, _, l, r) =>
      if key < k {
        InsertedKeys(l, key, value, policy, indexLen, heapLen);
      } else if key > k {
        InsertedKeys(r, key, value, policy, indexLen, heapLen);
      }
  }

  /** An existing key keeps every node where it was. */
  lemma {:induction false} InsertedExisting(t: Tree, key: int, value: seq<byte>, policy: OverwritePolicy, indexLen: int, heapLen: int)
    requires Ordered(t) && key in Keys(t)
    ensures var t' := Inserted(t, key, value, policy, indexLen, heapLen);
            && SameShape(t, t') && Size(t') == Size(t) && Offsets(t') == Offsets(t)
  {
    match t
    case Node(_, k, _, _, l, r) =>
      SameShapeRefl(l);
      SameShapeRefl(r);
      if key < k {
        assert key in Keys(l);
        InsertedExisting(l, key, value, policy, indexLen, heapLen);
      } else if key > k {
        assert key in Keys(r);
        InsertedExisting(r, key, value, policy, indexLen, heapLen);
      }
  }

  /** A new key adds exactly one node, a leaf at offset `indexLen`. */
  lemma {:induction false} InsertedNew(t: Tree, key: int, value: seq<byte>, policy: OverwritePolicy, indexLen: int, heapLen: int)
    requires key !in Keys(t)
    ensures var t' := Inserted(t, key, value, policy, indexLen, heapLen);
            && Size(t') == Size(t) + 1 && Offsets(t') == Offsets(t) + {indexLen}
  {
    match t
    case Nil =>
    case Node(_, k, _, _, l, r) =>
      if key < k {
        InsertedNew(l, key, value, policy, indexLen, heapLen);
      } else {
        InsertedNew(r, key, value, policy, indexLen, heapLen);
      }
  }

  /** Insertion keeps the binary search tree ordering. */
  lemma {:induction false} InsertedOrdered(t: Tree, key: int, value: seq<byte>, policy: OverwritePolicy, indexLen: int, heapLen: int)
    requires Ordered(t)
    ensures Ordered(Inserted(t, key, value, policy, indexLen, heapLen))
  {
    match t
    case Nil =>
    case Node(_, k, _, _, l, r) =>
      if key < k {
        InsertedOrdered(l, key, value, policy, indexLen, heapLen);
        InsertedKeys(l, key, value, policy, indexLen, heapLen);
      } else if key > k {
        InsertedOrdered(r, key, value, policy, indexLen, heapLen);
        InsertedKeys(r, key, value, policy, indexLen, heapLen);
      }
  }
}

=== FILE: layout.dfy ===
/** The on-disk layout constants of the index store and the errors the
    store operations can raise. */
module Layout {

  /** The index store starts with a reserved header block. */
  const HeaderOffset: nat := 0
  const HeaderSize: nat := 128

  /** The root record always sits right after the header. */
  const RootOffset: nat := HeaderOffset + HeaderSize

  /** Field widths of a node record, in bytes. */
  const KeySize: nat := 64
  const ValueAddrSize: nat := 64
  const NodeAddressSize: nat := 64
  const ValueLengthSize: nat := 4

  /** A node record is key, value length, value offset, left and right offsets. */
  const NodeSize: nat := KeySize + 2 * NodeAddressSize + ValueAddrSize + ValueLengthSize

  /** Every value in the heap is followed by a newline byte. */
  const RecordSeparator: int := 10

  /** Sentinel value offset: no value has been written for the node. */
  const NoValue: int := -1

  /** Sentinel child offset: the node has no child on that side. */
  const NoChild: int := -2

  /** The exceptions the store operations raise as written in bst.py.
      - Overflow: an integer does not fit its field (`int.to_bytes` fails).
      - NegativeSeek: a file position is negative (`seek` fails).
      - RecursionLimit: node materialisation exceeds Python's recursion
        limit (`RecursionError`), whether it would bottom out or not. */
  datatype Error = Overflow | NegativeSeek | RecursionLimit
}

=== FILE: persistence.dfy ===
/** The link between the materialised tree and the bytes of the two files:
    every node's record sits in its own slot of the index store, the root
    at `RootOffset`, every value inside the heap. A fresh process that opens
    the files loads exactly the tree the writing process holds in memory. */
module Persistence {
  import opened Bytes
  import opened Layout
  import opened Results
  import opened NodeRecord
  import opened Trees
  import opened DiskStore

  /** Every node of `t` is the record `slots` gives for its offset. */
  predicate Holds(t: Tree, slots: nat -> Record)
  {
    match t
    case Nil => true
    case Node(o, _, _, _, l, r) =>
      && 0 <= o && slots(o) == RecordOf(t)
      && Holds(l, slots) && Holds(r, slots)
  }

  /** Every slot of `t` lies after the header and inside a file of `len` bytes. */
  predicate InFile(t: Tree, len: int)
  {
    forall p :: p in Offsets(t) ==> HeaderSize <= p && p + NodeSize <= len
  }

  /** Each node's record is in its own slot of the index store. */
  predicate Stored(t: Tree, index: seq<byte>)
  {
    InFile(t, |index|) && Holds(t, Slots(index))
  }

  /** Two record slots that do not overlap. */
  predicate Apart(a: int, b: int)
  {
    a + NodeSize <= b || b + NodeSize <= a
  }

  /** The slots of distinct nodes never overlap. */
  predicate Separate(t: Tree)
  {
    match t
    case Nil => true
    case Node(o, _, _, _, l, r) =>
      && (forall p :: p in Offsets(l) ==> Apart(o, p))
      && (forall p :: p in Offsets(r) ==> Apart(o, p))
      && (forall a, b :: a in Offsets(l) && b in Offsets(r) ==> Apart(a, b))
      && Separate(l) && Separate(r)
  }

  /** Every node has a value of at least the separator byte inside the heap. */
  predicate ValuesInHeap(t: Tree, heapLen: int)
  {
    match t
    case Nil => true
    case Node(_, _, vs, vo, l, r) =>
      && 0 <= vo && 1 <= vs && vo + vs <= heapLen
      && ValuesInHeap(l, heapLen) && ValuesInHeap(r, heapLen)
  }

  /** The state a session keeps between operations. */
  predicate Inv(t: Tree, st: Store)
  {
    && |st.index| >= HeaderSize
    && st.index[..HeaderSize] == Zeros(HeaderSize)
    && (t.Nil? ==> |st.index| == HeaderSize)
    && (t.Node? ==> t.offset == RootOffset)
    && Stored(t, st.index)
    && Separate(t)
    && Ordered(t)
    && ValuesInHeap(t, |st.heap|)
  }

  /** A freshly created store holds the empty tree. */
  lemma EmptyStoreInv()
    ensures Inv(Nil, EmptyStore())
    ensures Open(Store([], []), 0) == Success((EmptyStore(), Nil))
  {
  }

  /** Loading a tree whose records `slots` holds, from its root offset,
      materialises exactly that tree given a recursion budget of at least
      its height. */
  lemma {:induction false} LoadHolds(t: Tree, slots: nat -> Record, fuel: nat)
    requires t.Node? && Holds(t, slots) && fuel >= Height(t)
    ensures LoadFrom(slots, t.offset, fuel) == Success(t)
    decreases t, 0
  {
    LoadChildHolds(t.left, slots, fuel - 1);
    LoadChildHolds(t.right, slots, fuel - 1);
  }

  lemma {:induction false} LoadChildHolds(t: Tree, slots: nat -> Record, fuel: nat)
    requires Holds(t, slots) && fuel >= Height(t)
    ensures LoadChild(slots, ChildOffset(t), fuel) == Success(t)
    decreases t, 1
  {
    if t.Node? {
      LoadHolds(t, slots, fuel);
    }
  }

  /** Reopening the files of a session, with recursion room for the tree's
      height, gives back the session's tree (`Open` as written does so
      whenever the tree is non-empty). */
  lemma Reopen(t: Tree, st: Store, fuel: nat)
    requires Inv(t, st) && fuel >= Height(t)
    ensures OpenChecked(st, fuel) == Success((st, t))
    ensures t.Node? ==> Open(st, fuel) == Success((st, t))
  {
    if t.Node? {
      LoadHolds(t, Slots(st.index), fuel);
    }
  }

  /** Records that agree on every node's offset give the same tree. */
  lemma {:induction false} HoldsFrame(t: Tree, s1: nat -> Record, s2: nat -> Record)
    requires Holds(t, s1)
    requires forall o: nat :: o in Offsets(t) ==> s1(o) == s2(o)
    ensures Holds(t, s2)
  {
    if t.Node? {
      HoldsFrame(t.left, s1, s2);
      HoldsFrame(t.right, s1, s2);
    }
  }

  /** Byte `i` lies in none of the slots at the given offsets. */
  predicate OutsideAll(i: int, offsets: set<int>)
  {
    forall p :: p in offsets ==> !(p <= i < p + NodeSize)
  }

  /** `b` extends `a` and differs from it only inside the given slots. */
  predicate IndexFrame(a: seq<byte>, b: seq<byte>, offsets: set<int>)
  {
    && |b| >= |a|
    && forall i {:trigger OutsideAll(i, offsets)} :: 0 <= i < |a| && OutsideAll(i, offsets) ==> b[i] == a[i]
  }

  /** A slot inside `a` and apart from every changed slot keeps its record. */
  lemma SlotKept(a: seq<byte>, b: seq<byte>, offsets: set<int>, o: nat)
    requires IndexFrame(a, b, offsets)
    requires o + NodeSize <= |a|
    requires forall p :: p in offsets ==> Apart(o, p)
    ensures Slots(b)(o) == Slots(a)(o)
  {
    forall i | o <= i < o + NodeSize
      ensures b[i] == a[i]
    {
      assert OutsideAll(i, offsets);
    }
    assert a[o..o + NodeSize] == b[o..o + NodeSize];
    SlotRecordInside(a, o);
    SlotRecordInside(b, o);
  }

  /** Writing one record at `o` puts it in the slot at `o` and changes
      nothing else. */
  lemma WriteRecordSlot(index: seq<byte>, o: int, rec: Record)
    requires WriteRecord(index, o, rec).Success?
    ensures var b := WriteRecord(index, o, rec).value;
            && o >= 0 && Slots(b)(o) == rec
            && IndexFrame(index, b, {o})
  {
    var b := WriteRecord(index, o, rec).value;
    WriteRecordReadsBack(index, o, rec);
    SlotRecordInside(b, o);
    forall i | 0 <= i < |index| && OutsideAll(i, {o})
      ensures b[i] == index[i]
    {
      assert o in {o};
    }
  }

  lemma IndexFrameTrans(a: seq<byte>, b: seq<byte>, c: seq<byte>, s1: set<int>, s2: set<int>, s: set<int>)
    requires IndexFrame(a, b, s1) && IndexFrame(b, c, s2)
    requires s1 + s2 <= s
    ensures IndexFrame(a, c, s)
  {
    forall i | 0 <= i < |a| && OutsideAll(i, s)
      ensures c[i] == a[i]
    {
      assert OutsideAll(i, s1) && OutsideAll(i, s2);
    }
  }

  lemma {:induction false} ValuesInLargerHeap(t: Tree, n: int, m: int)
    requires ValuesInHeap(t, n) && n <= m
    ensures ValuesInHeap(t, m)
  {
    if t.Node? {
      ValuesInLargerHeap(t.left, n, m);
      ValuesInLargerHeap(t.right, n, m);
    }
  }
}

=== FILE: record.dfy ===
/** The fixed-width 260-byte node record of the index store
    (`BSTNode.save` writes it, `BSTNode.load` reads it). */
module NodeRecord {
  import opened Bytes
  import opened Layout
  import opened Results

  /** The five fields of a record, in file order. */
  datatype Record = Record(key: int, valueSize: int, valueOffset: int, leftOffset: int, rightOffset: int)

  /** Where each field starts inside a record. */
  const ValueSizeAt: nat := KeySize
  const ValueOffsetAt: nat := ValueSizeAt + ValueLengthSize
  const LeftAt: nat := ValueOffsetAt + ValueAddrSize
  const RightAt: nat := LeftAt + NodeAddressSize

  /** Every field fits its width: the key and the value length unsigned, the
      three offsets as signed 64-byte integers. */
  predicate Encodable(r: Record)
  {
    && 0 <= r.key < Pow256(KeySize)
    && 0 <= r.valueSize < Pow256(ValueLengthSize)
    && InSignedRange(r.valueOffset, ValueAddrSize)
    && InSignedRange(r.leftOffset, NodeAddressSize)
    && InSignedRange(r.rightOffset, NodeAddressSize)
  }

  /** A record whose key and value length are below 256 and whose offsets
      are sentinels or below 2^16 fits every field. */
  lemma SmallEncodable(r: Record)
    requires 0 <= r.key < 256 && 0 <= r.valueSize < 256
    requires -2 <= r.valueOffset < 0x1_0000 && -2 <= r.leftOffset < 0x1_0000 && -2 <= r.rightOffset < 0x1_0000
    ensures Encodable(r)
  {
    PowMonotone(1, KeySize);
    PowMonotone(1, ValueLengthSize);
    PowMonotone(3, ValueAddrSize);
    assert Half(ValueAddrSize) >= Half(3);
  }

  /** The bytes `save` writes for a record, or the OverflowError that
      `to_bytes` raises when a field does not fit. */
  function Encode(r: Record): (res: Result<seq<byte>, Error>)
    ensures res.Success? <==> Encodable(r)
    ensures res.Failure? ==> res.error == Overflow
    ensures res.Success? ==> |res.value| == NodeSize
  {
    if !Encodable(r) then Failure(Overflow)
    else
      var bs := EncodeUnsigned(r.key, KeySize)
        + EncodeUnsigned(r.valueSize, ValueLengthSize)
        + EncodeSigned(r.valueOffset, ValueAddrSize)
        + EncodeSigned(r.leftOffset, NodeAddressSize)
        + EncodeSigned(r.rightOffset, NodeAddressSize);
      Success(bs)
  }

  /** The record is laid out as key, value length, value offset, left offset,
      right offset, each field big-endian at its fixed position. */
  lemma EncodeLayout(r: Record)
    requires Encodable(r)
    ensures var bs := Encode(r).value;
            && bs[..ValueSizeAt] == EncodeUnsigned(r.key, KeySize)
            && bs[ValueSizeAt..ValueOffsetAt] == EncodeUnsigned(r.valueSize, ValueLengthSize)
            && bs[ValueOffsetAt..LeftAt] == EncodeSigned(r.valueOffset, ValueAddrSize)
            && bs[LeftAt..RightAt] == EncodeSigned(r.leftOffset, NodeAddressSize)
            && bs[RightAt..] == EncodeSigned(r.rightOffset, NodeAddressSize)
  {
    SplitFive(EncodeUnsigned(r.key, KeySize), EncodeUnsigned(r.valueSize, ValueLengthSize),
              EncodeSigned(r.valueOffset, ValueAddrSize), EncodeSigned(r.leftOffset, NodeAddressSize),
              EncodeSigned(r.rightOffset, NodeAddressSize));
  }

  /** The five parts of a concatenation are recovered by slicing at the
      running sums of their lengths. */
  lemma SplitFive(a: seq<byte>, b: seq<byte>, c: seq<byte>, d: seq<byte>, e: seq<byte>)
    ensures var s := a + b + c + d + e;
            && s[..|a|] == a
            && s[|a|..|a| + |b|] == b
            && s[|a| + |b|..|a| + |b| + |c|] == c
            && s[|a| + |b| + |c|..|a| + |b| + |c| + |d|] == d
            && s[|a| + |b| + |c| + |d|..] == e
  {
  }

  /** The record `load` reads from whatever `read(NodeSize)` returned; a short
      read yields short slices, which decode like Python's `from_bytes`. */
  function Decode(data: seq<byte>): (r: Record)
    ensures r.key >= 0 && r.valueSize >= 0
    ensures |data| == 0 ==> r == Record(0, 0, 0, 0, 0)
  {
    Record(
      DecodeUnsigned(Slice(data, 0, ValueSizeAt)),
      DecodeUnsigned(Slice(data, ValueSizeAt, ValueOffsetAt)),
      DecodeSigned(Slice(data, ValueOffsetAt, LeftAt)),
      DecodeSigned(Slice(data, LeftAt, RightAt)),
      DecodeSigned(Slice(data, RightAt, |data|)))
  }

  /** A record image assembled from five fields of the right widths decodes
      field by field. */
  lemma DecodeFields(a: seq<byte>, b: seq<byte>, c: seq<byte>, d: seq<byte>, e: seq<byte>)
    requires |a| == KeySize && |b| == ValueLengthSize && |c| == ValueAddrSize
    requires |d| == NodeAddressSize && |e| == NodeAddressSize
    ensures Decode(a + b + c + d + e)
            == Record(DecodeUnsigned(a), DecodeUnsigned(b), DecodeSigned(c), DecodeSigned(d), DecodeSigned(e))
  {
    var bs := a + b + c + d + e;
    SplitFive(a, b, c, d, e);
    assert Slice(bs, 0, ValueSizeAt) == a;
    assert Slice(bs, ValueSizeAt, ValueOffsetAt) == b;
    assert Slice(bs, ValueOffsetAt, LeftAt) == c;
    assert Slice(bs, LeftAt, RightAt) == d;
    assert Slice(bs, RightAt, |bs|) == e;
  }

  /** Decoding what `save` wrote recovers every field, sentinels included. */
  lemma DecodeEncode(r: Record)
    requires Encodable(r)
    ensures Decode(Encode(r).value) == r
  {
    DecodeFields(EncodeUnsigned(r.key, KeySize), EncodeUnsigned(r.valueSize, ValueLengthSize),
                 EncodeSigned(r.valueOffset, ValueAddrSize), EncodeSigned(r.leftOffset, NodeAddressSize),
                 EncodeSigned(r.rightOffset, NodeAddressSize));
    DecodeEncodeUnsigned(r.key, KeySize);
    DecodeEncodeUnsigned(r.valueSize, ValueLengthSize);
    DecodeEncodeSigned(r.valueOffset, ValueAddrSize);
    DecodeEncodeSigned(r.leftOffset, NodeAddressSize);
    DecodeEncodeSigned(r.rightOffset, NodeAddressSize);
  }

  /** Five fields of the right widths, decoded and encoded again, give back
      their concatenation. */
  lemma EncodeFields(a: seq<byte>, b: seq<byte>, c: seq<byte>, d: seq<byte>, e: seq<byte>)
    requires |a| == KeySize && |b| == ValueLengthSize && |c| == ValueAddrSize
    requires |d| == NodeAddressSize && |e| == NodeAddressSize
    ensures Encode(Record(DecodeUnsigned(a), DecodeUnsigned(b), DecodeSigned(c), DecodeSigned(d), DecodeSigned(e)))
            == Success(a + b + c + d + e)
  {
    EncodeDecodeUnsigned(a);
    EncodeDecodeUnsigned(b);
    EncodeDecodeSigned(c);
    EncodeDecodeSigned(d);
    EncodeDecodeSigned(e);
  }

  /** Any full 260-byte record decodes to an encodable record that re-encodes
      to the same bytes; so rewriting a record unchanged leaves the file unchanged. */
  lemma EncodeDecode(data: seq<byte>)
    requires |data| == NodeSize
    ensures Encode(Decode(data)) == Success(data)
  {
    var a, b, c := data[..ValueSizeAt], data[ValueSizeAt..ValueOffsetAt], data[ValueOffsetAt..LeftAt];
    var d, e := data[LeftAt..RightAt], data[RightAt..];
    assert data == a + b + c + d + e;
    DecodeFields(a, b, c, d, e);
    EncodeFields(a, b, c, d, e);
  }
}

=== FILE: results.dfy ===
/** Optional values and failure-compatible results, used for the places where
    the store answers "nothing here" or raises an exception. */
module Results {

  /** An absent-or-present value; `None` plays the part of Python's `None`. */
  datatype Option<+T> = None | Some(value: T)

  /** The outcome of an operation that may raise: a value or the error raised. */
  datatype Result<+T, +E> = Success(value: T) | Failure(error: E) {

    predicate IsFailure() {
      Failure?
    }

    function PropagateFailure<U>(): Result<U, E>
      requires Failure?
    {
      Failure(error)
    }

    function Extract(): T
      requires Success?
    {
      value
    }
  }
}

=== FILE: search.dfy ===
/** Ordered lookup (`BST.get` / `_get`) and in-order listing
    (`BST.get_all` / `_get_all`) over the materialised tree. */
module Search {
  import opened Bytes
  import opened Layout
  import opened Results
  import opened Trees
  import opened DiskStore

  /** One (key, value) pair of the listing. */
  datatype Entry = Entry(key: int, value: Option<seq<byte>>)

  /** `get`: descend left on a smaller key, right on a larger one, and read
      the value of the node with an equal key; a missing child means absent. */
  function Get(t: Tree, heap: seq<byte>, key: int): (r: Result<Option<seq<byte>>, Error>)
    ensures key !in Keys(t) ==> r == Success(None)
  {
    match t
    case Nil => Success(None)
    case Node(_, k, _, _, l, rt) =>
      if key < k then Get(l, heap, key)
      else if key > k then Get(rt, heap, key)
      else ReadValue(t, heap)
  }

  /** Under the ordering invariant the descent finds the same node as an
      exhaustive search of the whole tree. */
  lemma {:induction false} GetFindsNode(t: Tree, heap: seq<byte>, key: int)
    requires Ordered(t)
    ensures Get(t, heap, key) == (match FindNode(t, key)
                                  case None => Success(None)
                                  case Some(n) => ReadValue(n, heap))
  {
    match t
    case Nil =>
    case Node(_, k, _, _, l, rt) =>
      if key < k {
        GetFindsNode(l, heap, key);
        assert key !in Keys(rt);
      } else if key > k {
        GetFindsNode(rt, heap, key);
        assert key !in Keys(l);
      }
  }

  function EntryKeys(es: seq<Entry>): (ks: seq<int>)
    ensures |ks| == |es|
    ensures forall i :: 0 <= i < |es| ==> ks[i] == es[i].key
  {
    if |es| == 0 then [] else EntryKeys(es[..|es| - 1]) + [es[|es| - 1].key]
  }

  /** `get_all`: the in-order concatenation of the left listing, the node's
      own pair and the right listing; the first failing read is raised. */
  function GetAll(t: Tree, heap: seq<byte>): (r: Result<seq<Entry>, Error>)
    ensures t.Nil? ==> r == Success([])
    ensures r.Success? ==> EntryKeys(r.value) == InOrderKeys(t)
  {
    match t
    case Nil => Success([])
    case Node(_, k, _, _, l, rt) =>
      var left :- GetAll(l, heap);
      var v :- ReadValue(t, heap);
      var right :- GetAll(rt, heap);
      var es := left + [Entry(k, v)] + right;
      assert EntryKeys(es) == EntryKeys(left) + [k] + EntryKeys(right);
      Success(es)
  }

  /** The listing of an ordered tree is strictly ascending in key and holds
      exactly one entry per node. */
  lemma GetAllAscending(t: Tree, heap: seq<byte>)
    requires Ordered(t)
    requires GetAll(t, heap).Success?
    ensures var es := GetAll(t, heap).value;
            && |es| == Size(t)
            && (forall i, j :: 0 <= i < j < |es| ==> es[i].key < es[j].key)
            && (forall i :: 0 <= i < |es| ==> es[i].key in Keys(t))
  {
    InOrderSorted(t);
    var es := GetAll(t, heap).value;
    assert EntryKeys(es) == InOrderKeys(t);
    forall i | 0 <= i < |es|
      ensures es[i].key in Keys(t)
    {
      assert es[i].key == InOrderKeys(t)[i];
    }
  }

  /** Every pair of the listing is what `get` answers for its key. */
  lemma {:induction false} GetAllAgreesWithGet(t: Tree, heap: seq<byte>)
    requires Ordered(t)
    requires GetAll(t, heap).Success?
    ensures forall e :: e in GetAll(t, heap).value ==> Get(t, heap, e.key) == Success(e.value)
  {
    match t
    case Nil =>
    case Node(_, k, _, _, l, rt) =>
      GetAllAgreesWithGet(l, heap);
      GetAllAgreesWithGet(rt, heap);
      var left, right := GetAll(l, heap).value, GetAll(rt, heap).value;
      var es := GetAll(t, heap).value;
      assert es == left + [Entry(k, ReadValue(t, heap).value)] + right;
      forall e | e in es
        ensures Get(t, heap, e.key) == Success(e.value)
      {
        if e in left {
          InOrderSorted(l);
          var i :| 0 <= i < |left| && left[i] == e;
          assert EntryKeys(left)[i] == e.key;
          assert e.key in Keys(l);
        } else if e in right {
          InOrderSorted(rt);
          var i :| 0 <= i < |right| && right[i] == e;
          assert EntryKeys(right)[i] == e.key;
          assert e.key in Keys(rt);
        }
      }
  }
}

=== FILE: session.dfy ===
/** What a user of `BST` observes across operations: `get` after `put`,
    the other keys left alone, and a reopened store giving back the tree. */
module Session {
  import opened Bytes
  import opened Layout
  import opened Results
  import opened NodeRecord
  import opened Trees
  import opened DiskStore
  import opened Search
  import opened Insert
  import opened Persistence
  import opened Durable

  /** Reading a value whose bytes lie inside `heap` gives the same answer
      after the heap has grown at its end. */
  lemma ReadValuePrefix(n: Tree, heap: seq<byte>, heap': seq<byte>)
    requires n.Node? && 0 <= n.valueOffset && 1 <= n.valueSize && n.valueOffset + n.valueSize <= |heap|
    requires heap <= heap'
    ensures ReadValue(n, heap') == ReadValue(n, heap)
  {
    assert heap'[n.valueOffset..n.valueOffset + n.valueSize - 1] == heap[n.valueOffset..n.valueOffset + n.valueSize - 1];
  }

  /** Appending to the heap changes no answer of `get` for a tree whose
      values all lie in the old heap. */
  lemma {:induction false} GetPrefix(t: Tree, heap: seq<byte>, heap': seq<byte>, key: int)
    requires ValuesInHeap(t, |heap|) && heap <= heap'
    ensures Get(t, heap', key) == Get(t, heap, key)
  {
    match t
    case Nil =>
    case Node(_, k, _, _, l, rt) =>
      if key < k {
        GetPrefix(l, heap, heap', key);
      } else if key > k {
        GetPrefix(rt, heap, heap', key);
      } else {
        ReadValuePrefix(t, heap, heap');
      }
  }

  /** After inserting a new key, or overwriting one under `Append`, `get`
      finds the inserted value wherever the heap holds it at `heapLen`. */
  lemma {:induction false} GetInsertedKey(t: Tree, heap: seq<byte>, key: int, value: seq<byte>, policy: OverwritePolicy, indexLen: int, heapLen: nat)
    requires policy == Append || key !in Keys(t)
    requires 0 < |value| && heapLen + |value| + 1 <= |heap| && heap[heapLen..heapLen + |value|] == value
    ensures Get(Inserted(t, key, value, policy, indexLen, heapLen), heap, key) == Success(Some(value))
  {
    match t
    case Nil =>
    case Node(_, k, _, _, l, rt) =>
      if key < k {
        GetInsertedKey(l, heap, key, value, policy, indexLen, heapLen);
      } else if key > k {
        GetInsertedKey(rt, heap, key, value, policy, indexLen, heapLen);
      }
  }

  /** Insertion leaves the answer of `get` for every other key as it was,
      provided the heap only grew. */
  lemma {:induction false} GetInsertedOther(t: Tree, heap: seq<byte>, heap': seq<byte>, key: int, value: seq<byte>, policy: OverwritePolicy, indexLen: int, other: int)
    requires Ordered(t) && ValuesInHeap(t, |heap|) && heap <= heap' && other != key
    ensures Get(Inserted(t, key, value, policy, indexLen, |heap|), heap', other) == Get(t, heap, other)
  {
    match t
    case Nil =>
    case Node(_, k, _, _, l, rt) =>
      if key < k && other < k {
        GetInsertedOther(l, heap, heap', key, value, policy, indexLen, other);
      } else if key > k && other > k {
        GetInsertedOther(rt, heap, heap', key, value, policy, indexLen, other);
      } else if other == k {
        ReadValuePrefix(t, heap, heap');
      } else if other < k {
        GetPrefix(l, heap, heap', other);
      } else {
        GetPrefix(rt, heap, heap', other);
      }
  }

  /** Inserting into a tree and appending the value to the heap: `get`
      finds the new value under the key and the old answer under every
      other key. */
  lemma GetAfterInsert(t: Tree, heap: seq<byte>, heap': seq<byte>, key: int, value: seq<byte>, policy: OverwritePolicy, indexLen: int)
    requires Ordered(t) && ValuesInHeap(t, |heap|)
    requires policy == Append || key !in Keys(t)
    requires 0 < |value| && heap' == heap + value + [RecordSeparator]
    ensures var t' := Inserted(t, key, value, policy, indexLen, |heap|);
            && Get(t', heap', key) == Success(Some(value))
            && forall other :: other != key ==> Get(t', heap', other) == Get(t, heap, other)
  {
    assert heap'[|heap|..|heap| + |value|] == value;
    GetInsertedKey(t, heap', key, value, policy, indexLen, |heap|);
    forall other | other != key
      ensures Get(Inserted(t, key, value, policy, indexLen, |heap|), heap', other) == Get(t, heap, other)
    {
      GetInsertedOther(t, heap, heap', key, value, policy, indexLen, other);
    }
  }

  /** `put(key, value)` followed by `get(key)` returns `value` whenever the
      key is new or the overwrite appends; every other key keeps its answer. */
  lemma PutThenGet(t: Tree, st: Store, key: int, value: seq<byte>, policy: OverwritePolicy)
    requires Inv(t, st) && Put(t, st, key, value, policy).Success?
    requires policy == Append || key !in Keys(t)
    ensures var r := Put(t, st, key, value, policy).value;
            && Get(r.0, r.1.heap, key) == Success(Some(value))
            && forall other :: other != key ==> Get(r.0, r.1.heap, other) == Get(t, st.heap, other)
  {
    var r := Put(t, st, key, value, policy).value;
    PutHeap(t, st, key, value, policy);
    GetAfterInsert(t, st.heap, r.1.heap, key, value, policy, |st.index|);
  }

  /** After a successful `put`, reopening the two stores rebuilds exactly
      the tree the session holds in memory, given recursion room for its
      height; with the root present, the unchecked open agrees. */
  lemma PutThenReopen(t: Tree, st: Store, key: int, value: seq<byte>, policy: OverwritePolicy, fuel: nat)
    requires Inv(t, st) && Put(t, st, key, value, policy).Success?
    requires fuel >= Height(Put(t, st, key, value, policy).value.0)
    ensures var r := Put(t, st, key, value, policy).value;
            && OpenChecked(r.1, fuel) == Success((r.1, r.0))
            && Open(r.1, fuel) == Success((r.1, r.0))
  {
    var r := Put(t, st, key, value, policy).value;
    PutKeepsInv(t, st, key, value, policy);
    Reopen(r.0, r.1, fuel);
  }

  /** Keys inserted in ascending order build a right spine: each new key is
      larger than all before it and goes to the far right. */
  lemma {:induction false} AscendingInsertSpine(t: Tree, key: int, value: seq<byte>, policy: OverwritePolicy, indexLen: int, heapLen: int)
    requires RightSpine(t) && forall k :: k in Keys(t) ==> k < key
    ensures var t' := Inserted(t, key, value, policy, indexLen, heapLen);
            && RightSpine(t')
            && Size(t') == Size(t) + 1
            && Height(t') == Height(t) + 1
  {
    if t.Node? {
      assert t.key in Keys(t) && Keys(t.right) <= Keys(t);
      AscendingInsertSpine(t.right, key, value, policy, indexLen, heapLen);
      RightSpineHeight(t);
      RightSpineHeight(Inserted(t, key, value, policy, indexLen, heapLen));
    }
  }
  /** A new key that does not fit its 64-byte field, or a value whose length
      does not fit the 4-byte field (the empty value, whose length is -1,
      included), makes `_put` fail with an overflow when the new record is
      written. */
  lemma {:induction false} PutAtRejectsUnencodable(n: Tree, st: Store, key: int, value: seq<byte>, policy: OverwritePolicy)
    requires n.Node? && key !in Keys(n)
    requires !(0 <= key < Pow256(KeySize) && 0 <= ValueSize(value) < Pow256(ValueLengthSize))
    ensures PutAt(n, st, key, value, policy) == Failure(Overflow)
    decreases n
  {
    if key < n.key && n.left.Node? {
      assert key !in Keys(n.left);
      PutAtRejectsUnencodable(n.left, st, key, value, policy);
    } else if key > n.key && n.right.Node? {
      assert key !in Keys(n.right);
      PutAtRejectsUnencodable(n.right, st, key, value, policy);
    } else {
      assert !Encodable(RecordOf(SavedLeaf(|st.index|, |st.heap|, key, value)));
    }
  }

  /** `put` of a new key fails with an overflow whenever its record cannot
      be encoded: a negative or over-wide key, an empty or over-long value. */
  lemma PutRejectsUnencodable(t: Tree, st: Store, key: int, value: seq<byte>, policy: OverwritePolicy)
    requires key !in Keys(t)
    requires !(0 <= key < Pow256(KeySize) && 0 <= ValueSize(value) < Pow256(ValueLengthSize))
    ensures Put(t, st, key, value, policy) == Failure(Overflow)
  {
    if t.Node? {
      PutAtRejectsUnencodable(t, st, key, value, policy);
    }
  }
}

=== FILE: store.dfy ===
/** The two files and the node-level operations on them: reading a value
    (`get_value`), saving a node (`save`), materialising a subtree (`load`)
    and opening the store (`BST.__init__`). */
module DiskStore {
  import opened Bytes
  import opened Layout
  import opened Results
  import opened NodeRecord
  import opened Trees

  /** The contents of the index store and of the value heap. */
  datatype Store = Store(index: seq<byte>, heap: seq<byte>)

  /** A freshly created store: the zero-filled header and an empty heap. */
  function EmptyStore(): (r: Store)
    ensures |r.index| == HeaderSize && r.heap == []
    ensures forall i :: 0 <= i < |r.index| ==> r.index[i] == 0
  {
    Store(Zeros(HeaderSize), [])
  }

  /** The value length recorded for a new node: the value plus its separator,
      or -1 for an empty value. */
  function ValueSize(value: seq<byte>): int
  {
    if |value| == 0 then -1 else |value| + 1
  }

  /** A node created by `put` at the given index offset: no value written
      yet and no children. */
  function NewNode(offset: int, key: int, value: seq<byte>): Tree
  {
    Node(offset, key, ValueSize(value), NoValue, Nil, Nil)
  }

  /** A new node's record carries the value's length and all three
      sentinels, and saving it with its data places the value at the end of
      the heap. */
  lemma NewNodeFresh(offset: int, key: int, value: seq<byte>, heap: seq<byte>)
    ensures var n := NewNode(offset, key, value);
            && n.Node? && n.offset == offset
            && RecordOf(n) == Record(key, ValueSize(value), NoValue, NoChild, NoChild)
            && SavedValueOffset(n, heap, true) == |heap|
  {
  }

  /** All but the last byte: the separator is dropped on read. */
  function DropLast(bs: seq<byte>): (r: seq<byte>)
    ensures |bs| > 0 ==> bs == r + [bs[|bs| - 1]]
    ensures |bs| == 0 ==> r == []
  {
    if |bs| == 0 then [] else bs[..|bs| - 1]
  }

  /** The recorded length is negative exactly for the empty value; otherwise
      it covers the value and its separator, so reading that many bytes of
      the heap record and dropping the separator gives the value back. */
  lemma ValueSizeCoversRecord(value: seq<byte>)
    ensures ValueSize(value) < 0 <==> |value| == 0
    ensures |value| > 0 ==> var rec := value + [RecordSeparator];
              ValueSize(value) == |rec| && DropLast(rec[..ValueSize(value)]) == value
  {
  }

  /** `get_value`: no value for the sentinel offset, otherwise the
      `valueSize` bytes at `valueOffset` without their last byte. */
  function ReadValue(n: Tree, heap: seq<byte>): (r: Result<Option<seq<byte>>, Error>)
    requires n.Node?
    ensures r == Success(None) <==> n.valueOffset == NoValue
    ensures r.Failure? <==> n.valueOffset < NoValue
    ensures 0 <= n.valueOffset && 1 <= n.valueSize && n.valueOffset + n.valueSize <= |heap| ==>
              r == Success(Some(heap[n.valueOffset..n.valueOffset + n.valueSize - 1]))
  {
    if n.valueOffset == NoValue then Success(None)
    else if n.valueOffset < 0 then Failure(NegativeSeek)
    else
      var bs := ReadAt(heap, n.valueOffset, n.valueSize);
      assert 0 <= n.valueOffset && 1 <= n.valueSize && n.valueOffset + n.valueSize <= |heap| ==>
               DropLast(bs) == heap[n.valueOffset..n.valueOffset + n.valueSize - 1];
      Success(Some(DropLast(bs)))
  }

  /** The value offset `save` ends up with: a node without a value that
      saves its data takes the current end of the heap; a value that has an
      offset never moves, whatever is saved there. */
  function SavedValueOffset(n: Tree, heap: seq<byte>, overwriteData: bool): (r: int)
    requires n.Node?
    ensures n.valueOffset != NoValue ==> r == n.valueOffset
    ensures r == NoValue <==> n.valueOffset == NoValue && !overwriteData
    ensures r != n.valueOffset ==> overwriteData && r == |heap|
  {
    if overwriteData && n.valueOffset == NoValue then |heap| else n.valueOffset
  }

  /** The heap half of `save`: with `overwriteData` and a non-empty value,
      write the value and its separator at `vo`; otherwise leave the heap. */
  function WriteValue(heap: seq<byte>, vo: int, overwriteData: bool, value: seq<byte>): (r: Result<seq<byte>, Error>)
    ensures r.Failure? <==> overwriteData && |value| > 0 && vo < 0
    ensures r.Success? ==> |r.value| >= |heap|
    ensures r.Success? && !(overwriteData && |value| > 0) ==> r.value == heap
    ensures r.Success? && overwriteData && |value| > 0 ==>
              ReadAt(r.value, vo, |value| + 1) == value + [RecordSeparator]
    ensures overwriteData && |value| > 0 && vo == |heap| ==> r == Success(heap + value + [RecordSeparator])
    ensures r.Success? && overwriteData && |value| > 0 ==>
              && |r.value| == Max(|heap|, vo + |value| + 1)
              && forall i :: 0 <= i < |heap| && !(vo <= i < vo + |value| + 1) ==> r.value[i] == heap[i]
  {
    if overwriteData && |value| > 0 then
      if vo < 0 then Failure(NegativeSeek)
      else
        ReadAfterWrite(heap, vo, value + [RecordSeparator]);
        WriteAtEnd(heap, value + [RecordSeparator]);
        assert heap + (value + [RecordSeparator]) == heap + value + [RecordSeparator];
        Success(WriteAt(heap, vo, value + [RecordSeparator]))
    else Success(heap)
  }

  /** The index half of `save`: write the record at the node's offset;
      only that 260-byte slot changes. */
  function WriteRecord(index: seq<byte>, offset: int, rec: Record): (r: Result<seq<byte>, Error>)
    ensures r.Failure? <==> offset < 0 || !Encodable(rec)
    ensures r.Success? ==> |r.value| == Max(|index|, offset + NodeSize)
    ensures r.Success? ==> forall i :: 0 <= i < |index| && !(offset <= i < offset + NodeSize) ==>
                              r.value[i] == index[i]
  {
    if offset < 0 then Failure(NegativeSeek)
    else
      var bytes :- Encode(rec);
      Success(WriteAt(index, offset, bytes))
  }

  /** The slot just written holds the record's encoding and decodes back
      to the record. */
  lemma WriteRecordReadsBack(index: seq<byte>, offset: int, rec: Record)
    requires WriteRecord(index, offset, rec).Success?
    ensures Encode(rec) == Success(WriteRecord(index, offset, rec).value[offset..offset + NodeSize])
    ensures Decode(WriteRecord(index, offset, rec).value[offset..offset + NodeSize]) == rec
  {
    DecodeEncode(rec);
  }

  /** `save(overwrite_data)`: optionally write `value` and its separator to
      the heap at the node's value offset (allocated at the end of the heap
      if there is none yet), then write the node's record at its own offset. */
  function Save(n: Tree, st: Store, overwriteData: bool, value: seq<byte>): (r: Result<(Tree, Store), Error>)
    requires n.Node?
    ensures r.Success? ==> r.value.0 == n.(valueOffset := SavedValueOffset(n, st.heap, overwriteData))
    ensures r.Success? ==> WriteRecord(st.index, n.offset, RecordOf(r.value.0)) == Success(r.value.1.index)
    ensures r.Success? ==> WriteValue(st.heap, r.value.0.valueOffset, overwriteData, value) == Success(r.value.1.heap)
    ensures r.Failure? <==>
              || WriteValue(st.heap, SavedValueOffset(n, st.heap, overwriteData), overwriteData, value).Failure?
              || WriteRecord(st.index, n.offset, RecordOf(n.(valueOffset := SavedValueOffset(n, st.heap, overwriteData)))).Failure?
  {
    var vo := SavedValueOffset(n, st.heap, overwriteData);
    var heap :- WriteValue(st.heap, vo, overwriteData, value);
    var saved := n.(valueOffset := vo);
    var index :- WriteRecord(st.index, n.offset, RecordOf(saved));
    Success((saved, Store(index, heap)))
  }

  /** The record `load` reads from the slot at `offset`: `NodeSize` bytes,
      or fewer at end of file, decoded field by field. */
  function SlotRecord(index: seq<byte>, offset: nat): Record
  {
    Decode(ReadAt(index, offset, NodeSize))
  }

  /** The index store seen as a table from offsets to the records there. */
  function Slots(index: seq<byte>): nat -> Record
  {
    (o: nat) => SlotRecord(index, o)
  }

  /** A slot that lies inside the file decodes exactly its own bytes. */
  lemma SlotRecordInside(index: seq<byte>, offset: nat)
    requires offset + NodeSize <= |index|
    ensures Slots(index)(offset) == Decode(index[offset..offset + NodeSize])
  {
    assert ReadAt(index, offset, NodeSize) == index[offset..offset + NodeSize];
  }

  /** `load` on the node at `offset`, reading records through `slots`:
      read its record and materialise every child whose offset is not the
      sentinel, recursively. Each level costs two Python frames (`load` and
      `BSTNode.__init__`), so the recursion limit bounds the height that
      loads; `fuel` stands for that limit, counted in tree levels. */
  function LoadFrom(slots: nat -> Record, offset: int, fuel: nat): (r: Result<Tree, Error>)
    ensures r.Success? ==> r.value.Node? && r.value.offset == offset && Height(r.value) <= fuel
    ensures r.Success? ==> offset >= 0 && RecordOf(r.value) == slots(offset)
    decreases fuel, 0
  {
    if offset < 0 then Failure(NegativeSeek)
    else if fuel == 0 then Failure(RecursionLimit)
    else
      var rec := slots(offset);
      var left :- LoadChild(slots, rec.leftOffset, fuel - 1);
      var right :- LoadChild(slots, rec.rightOffset, fuel - 1);
      Success(Node(offset, rec.key, rec.valueSize, rec.valueOffset, left, right))
  }

  /** A child is materialised exactly when its offset is not the sentinel. */
  function LoadChild(slots: nat -> Record, offset: int, fuel: nat): (r: Result<Tree, Error>)
    ensures offset == NoChild <==> r == Success(Nil)
    ensures r.Success? ==> Height(r.value) <= fuel && ChildOffset(r.value) == offset
    decreases fuel, 1
  {
    if offset == NoChild then Success(Nil) else LoadFrom(slots, offset, fuel)
  }

  /** `load` on the index store itself. */
  function Load(index: seq<byte>, offset: int, fuel: nat): (r: Result<Tree, Error>)
    ensures r.Success? ==> r.value.Node? && r.value.offset == offset && Height(r.value) <= fuel
    ensures r.Success? ==> offset >= 0 && RecordOf(r.value) == SlotRecord(index, offset)
  {
    LoadFrom(Slots(index), offset, fuel)
  }

  /** `BST.__init__` on existing file contents: an empty index gets the
      zero header and an empty tree; any other index has its root loaded from
      `RootOffset`. */
  function Open(st: Store, fuel: nat): (r: Result<(Store, Tree), Error>)
    ensures r.Success? && |st.index| == 0 ==> r.value == (Store(Zeros(HeaderSize), st.heap), Nil)
    ensures r.Success? && |st.index| > 0 ==> r.value.0 == st && r.value.1.Node? && r.value.1.offset == RootOffset
    ensures r.Success? && |st.index| > 0 ==> RecordOf(r.value.1) == SlotRecord(st.index, RootOffset)
  {
    if |st.index| == 0 then Success((Store(Zeros(HeaderSize), st.heap), Nil))
    else
      var root :- Load(st.index, RootOffset, fuel);
      Success((st, root))
  }

  /** `Open` with the missing case added: an index holding only the header
      has no root record and opens as an empty tree. */
  function OpenChecked(st: Store, fuel: nat): (r: Result<(Store, Tree), Error>)
    ensures |st.index| == HeaderSize ==> r == Success((st, Nil))
    ensures |st.index| != HeaderSize ==> r == Open(st, fuel)
  {
    if |st.index| == HeaderSize then Success((st, Nil)) else Open(st, fuel)
  }
}

=== FILE: tree.dfy ===
/** The materialised tree: what `BSTNode.load` builds in memory from the
    index store, one node per record, children fully loaded. */
module Trees {
  import opened Layout
  import opened Results
  import opened NodeRecord

  /** A node carries its own index-store offset and the scalar fields of its
      record; its child offsets are those of its children (`NoChild` when absent). */
  datatype Tree =
    | Nil
    | Node(offset: int, key: int, valueSize: int, valueOffset: int, left: Tree, right: Tree)

  /** The offset stored for a child: the child's offset, or the sentinel. */
  function ChildOffset(t: Tree): int
  {
    if t.Nil? then NoChild else t.offset
  }

  /** The record a node is saved as. */
  function RecordOf(t: Tree): Record
    requires t.Node?
  {
    Record(t.key, t.valueSize, t.valueOffset, ChildOffset(t.left), ChildOffset(t.right))
  }

  function Keys(t: Tree): set<int>
  {
    if t.Nil? then {} else Keys(t.left) + {t.key} + Keys(t.right)
  }

  /** The index-store offsets of all nodes of the tree. */
  function Offsets(t: Tree): set<int>
  {
    if t.Nil? then {} else Offsets(t.left) + {t.offset} + Offsets(t.right)
  }

  function Size(t: Tree): nat
  {
    if t.Nil? then 0 else Size(t.left) + 1 + Size(t.right)
  }

  function Height(t: Tree): nat
  {
    if t.Nil? then 0 else 1 + Bytes.Max(Height(t.left), Height(t.right))
  }

  /** The binary search tree ordering: every key on the left is smaller and
      every key on the right is larger than the node's key. */
  predicate Ordered(t: Tree)
  {
    match t
    case Nil => true
    case Node(_, k, _, _, l, r) =>
      && (forall x :: x in Keys(l) ==> x < k)
      && (forall x :: x in Keys(r) ==> k < x)
      && Ordered(l) && Ordered(r)
  }

  /** The keys in in-order: left subtree, node, right subtree. */
  function InOrderKeys(t: Tree): seq<int>
  {
    if t.Nil? then [] else InOrderKeys(t.left) + [t.key] + InOrderKeys(t.right)
  }

  predicate StrictlyAscending(s: seq<int>)
  {
    forall i, j :: 0 <= i < j < |s| ==> s[i] < s[j]
  }

  /** In-order lists exactly the keys of the tree, one entry per node, and
      under the ordering invariant it is strictly ascending. */
  lemma {:induction false} InOrderSorted(t: Tree)
    ensures |InOrderKeys(t)| == Size(t)
    ensures forall x :: x in InOrderKeys(t) <==> x in Keys(t)
    ensures Ordered(t) ==> StrictlyAscending(InOrderKeys(t))
  {
    if t.Node? {
      InOrderSorted(t.left);
      InOrderSorted(t.right);
      var l, r := InOrderKeys(t.left), InOrderKeys(t.right);
      var s := InOrderKeys(t);
      assert s == l + [t.key] + r;
      forall x
        ensures x in s <==> x in Keys(t)
      {
        assert x in s <==> x in l || x == t.key || x in r;
      }
      if Ordered(t) {
        forall i, j | 0 <= i < j < |s|
          ensures s[i] < s[j]
        {
          if j < |l| {
          } else if i < |l| {
            assert s[i] in Keys(t.left);
            if j > |l| {
              assert s[j] == r[j - |l| - 1];
              assert s[j] in Keys(t.right);
            }
          } else if i == |l| {
            assert s[j] == r[j - |l| - 1];
            assert s[j] in Keys(t.right);
          } else {
            assert s[i] == r[i - |l| - 1] && s[j] == r[j - |l| - 1];
          }
        }
      }
    }
  }

  /** Reference lookup that ignores the ordering: the first node (root, then
      left subtree, then right subtree) carrying the key. */
  function FindNode(t: Tree, key: int): (r: Option<Tree>)
    ensures r.Some? <==> key in Keys(t)
    ensures r.Some? ==> r.value.Node? && r.value.key == key
  {
    match t
    case Nil => None
    case Node(_, k, _, _, l, rt) =>
      if k == key then Some(t)
      else
        var found := FindNode(l, key);
        if found.Some? then found else FindNode(rt, key)
  }

  /** Two trees with the same nodes (offset and key) in the same places. */
  predicate SameShape(a: Tree, b: Tree)
  {
    match a
    case Nil => b.Nil?
    case Node(o, k, _, _, l, r) =>
      b.Node? && b.offset == o && b.key == k && SameShape(l, b.left) && SameShape(r, b.right)
  }

  /** A tree whose nodes have no left children: a linked list to the right. */
  predicate RightSpine(t: Tree)
  {
    t.Nil? || (t.left.Nil? && RightSpine(t.right))
  }

  /** A right spine is as deep as it is large. */
  lemma {:induction false} RightSpineHeight(t: Tree)
    requires RightSpine(t)
    ensures Height(t) == Size(t)
  {
    if t.Node? {
      RightSpineHeight(t.right);
    }
  }
}
